=== FILE: README.md ===
# Nutri Karina clinic: booking, availability and session reports in Dafny

This project models the logic at the centre of the Nutri Karina clinic web application, and proves properties of that model. It covers three pieces.

- **Availability engine** of the public booking page. The day's candidate start times come from two fixed windows, 08:00–12:00 and 13:30–19:00. Each window is walked in steps of the consultation length plus a 10-minute buffer. Each time is rendered as `"HH:MM"`. The filter then keeps the times still bookable on the selected date:
  - on today's date, nothing at or before the current hour and minute;
  - no time held by a non-cancelled appointment.
- **Booking wizard.** The dialog moves through step 1 (date and time), step 2 (contact details) and step 3 (confirmation). Closing it resets every field; closing while a submission is still pending is not modelled (see below).
- **Booking registration** (`registerNewBooking`). It finds the client by e-mail, ignoring letter case, or creates a pending one. It then appends one appointment and one income record priced from the settings.
- **Session-report screen.**
  - The editor loads a report for an appointment and saves it, replacing any older report for the same appointment.
  - A patient's appointment history is shown newest first.
  - The patient list is searched by name or e-mail and ordered by each patient's last appointment date.

Module layout:

| file | contents |
|---|---|
| `Wrappers.dfy` | `Option`, used wherever the application has `undefined`, `null` or NaN. |
| `Text.dfy` | The JavaScript string operations the logic relies on: `toLowerCase` (ASCII letters), `trim`, `includes`, `split`, `Number` on digit strings, and `localeCompare` on ISO dates. |
| `Seqs.dfy` | `filter`, `find` and a stable descending sort by a string key. |
| `Domain.dfy` | Clients, appointments, financial records, settings and contact details. |
| `Slots.dfy` | Slot generation, as the two `while` loops of the page. Also rendering and parsing of `"HH:MM"`, and the availability filter. |
| `Booking.dfy` | The registration as a specification function. The application's collections as a class whose method performs it. |
| `Wizard.dfy` | The booking dialog as a class whose methods are the dialog's event handlers. |
| `Reports.dfy` | The report editor as a class. The history and patient-list views as functions. |

Times of day are minutes since midnight. The clock is a parameter: today's `"YYYY-MM-DD"` and the current hour and minute. So are the text of `Date.now()`, the random meeting-room token and the save timestamp.

### Behaviour of the code worth knowing

- **Choosing a time.** The dialog leaves step 1 whenever a date and a time are present (components/LandingPage.tsx:537-539). Nothing re-checks the time against the offered set.
  - The time buttons offer only available times (components/LandingPage.tsx:521-524). `Wizard.BookingWizard.SelectTime` models that.
  - Changing the date afterwards keeps the chosen time, even when it is not offered on the new date (components/LandingPage.tsx:505). `Wizard.BookingWizard.SelectDate` models that too.
  - `Booking.RegisterKeepsNoDoubleBooking` therefore assumes the booked time is offered on the booked date.
- **A failed booking.** Neither the registration (App.tsx:83-106) nor the confirmation-message service can throw: the service catches its own errors (services/geminiService.ts:22-39). So submitting always reaches step 3 (components/LandingPage.tsx:139-161). The `catch` branch, which only logs, has no counterpart in the model.
- **Loading stored collections.** `JSON.parse` of a stored collection is not guarded (App.tsx:23-58), so corrupt stored data throws during start-up. Loading is left out of the model.

## Model

| member | source | states |
|---|---|---|
| Text.Lower | App.tsx:84 | Lower-casing keeps the length and maps every character through the ASCII letter mapping. |
| Text.TrimStart | components/SessionReportManagement.tsx:46 | The result is a suffix of the input. Everything dropped is white space, and the result does not start with white space. |
| Text.TrimEnd | components/SessionReportManagement.tsx:46 | The result is a prefix of the input. Everything dropped is white space, and the result does not end with white space. |
| Text.TrimEmptyIffBlank | components/SessionReportManagement.tsx:46 | A query is falsy after `trim()` exactly when every character of it is white space. |
| Text.LowerKeepsBlank | components/SessionReportManagement.tsx:46-49 | A query is blank after trimming exactly when its lower-cased form is. |
| Text.IncludesIff | components/SessionReportManagement.tsx:48-49 | `includes` holds exactly when the substring occurs at some position. |
| Text.Split | components/LandingPage.tsx:105 | Splitting gives at least one piece, and no piece contains the separator. |
| Text.SplitJoin | components/LandingPage.tsx:105 | Joining the pieces of a split with the separator gives back the original string. |
| Text.SplitAtSeparator | components/LandingPage.tsx:105 | Splitting `a + sep + b`, where `a` holds no separator, yields `a` followed by the pieces of `b`. |
| Text.SplitNoSeparator | components/LandingPage.tsx:105 | A string without the separator splits into itself alone. |
| Text.LexLeReflexive | components/SessionReportManagement.tsx:37 | The date order used for `localeCompare` is reflexive. |
| Text.LexLeTotal | components/SessionReportManagement.tsx:37 | Any two dates are comparable in that order. |
| Text.LexLeTransitive | components/SessionReportManagement.tsx:53 | The order is transitive. |
| Text.LexLeAntisymmetric | components/SessionReportManagement.tsx:60 | Two dates each at most the other are equal. |
| Seqs.Filter | components/SessionReportManagement.tsx:59 | The result is no longer than the input. Every kept element occurs in the input and passes the test. Every input element that passes is kept. |
| Seqs.FilterIsSubsequence | components/LandingPage.tsx:103 | A filter keeps the input's order and adds nothing. |
| Seqs.FilterMembers | components/SessionReportManagement.tsx:59 | An element is in the filtered list exactly when it occurs in the input and passes the test. |
| Seqs.FilterAgree | components/LandingPage.tsx:103-118 | Two tests that agree on every element filter alike. |
| Seqs.FilterAll | components/LandingPage.tsx:103-118 | A test every element passes keeps the whole list. |
| Seqs.FilterConcat | components/SessionReportManagement.tsx:105-108 | Filtering distributes over concatenation. |
| Seqs.FilterIdempotent | components/SessionReportManagement.tsx:106 | Filtering twice with one test is filtering once. |
| Seqs.Find | App.tsx:84 | `find` returns an element that passes, and every earlier element fails. When it returns nothing, no element passes. |
| Seqs.InsertDesc | components/SessionReportManagement.tsx:60 | Inserting into a list sorted newest first adds exactly that element and keeps the list sorted. |
| Seqs.SortDesc | components/SessionReportManagement.tsx:60 | The sort returns a permutation of its input, ordered by key from newest to oldest. Its stability is `Seqs.SortDescStable`. |
| Seqs.InsertStable | components/SessionReportManagement.tsx:60 | Inserting one element into a sorted list keeps the input order among the elements with any one key; the inserted element stays in front of those with its own key. |
| Seqs.SortDescStable | components/SessionReportManagement.tsx:60 | The sort is stable: the elements with any one key appear in the result in their input order, as `Array.prototype.sort` guarantees. |
| Seqs.SortedDescHeadIsMax | components/SessionReportManagement.tsx:37 | The head of a list sorted newest first has the greatest key. |
| Slots.WindowSlots | components/LandingPage.tsx:68-80 | One window's times are empty exactly when the window is. The first time is the window start. Every time lies inside the window. Consecutive times differ by exactly the step, and no further time fits before the end. |
| Slots.DayMinutesIncreasing | components/LandingPage.tsx:72-94 | The day's times are strictly increasing, so morning precedes afternoon with no repeats. Each lies in the morning or the afternoon window. |
| Slots.PushWindow | components/LandingPage.tsx:72-80 | One generating loop appends exactly the rendered times of its window. |
| Slots.GenerateTimeSlots | components/LandingPage.tsx:65-95 | The two loops produce the morning times followed by the afternoon times, rendered. The step is the configured duration (60 when it is 0) plus 10, and must be positive. |
| Slots.SlotDurationFallback | components/LandingPage.tsx:67 | `defaultDuration \|\| 60` never yields the falsy 0: a configured non-zero duration is used as it is and 0 becomes 60. |
| Slots.WindowTimesRendered | components/LandingPage.tsx:72-93 | The times one loop pushes are exactly its window's start times rendered one by one. |
| Slots.TimeSlotsRendered | components/LandingPage.tsx:65-95 | The slot list is the day's start times rendered in order. |
| Slots.RenderAll | components/LandingPage.tsx:73-78 | Rendering a list keeps its length and renders each element in place. |
| Slots.RenderAllConcat | components/LandingPage.tsx:85-94 | Rendering distributes over the morning and afternoon lists. |
| Slots.Pad2Value | components/LandingPage.tsx:73-78 | A zero-padded two-digit number contains no `:` and reads back as the same number. |
| Slots.RenderParse | components/LandingPage.tsx:105 | Rendering a time of day as `"HH:MM"` and splitting on `:` gives back its hour and minute. |
| Slots.ParseTime | components/LandingPage.tsx:105 | A time without `:` gives its `Number` as the hour and an undefined minute. |
| Slots.ParseTimeAtColon | components/LandingPage.tsx:105 | With the first `:` at index k, the hour is the `Number` of the text before it and the minute the `Number` of the text after it, up to any further `:`. |
| Slots.AtOrBefore | components/LandingPage.tsx:106-110 | A time whose hour is NaN or undefined is never at or before the clock, since such comparisons are false. |
| Slots.AtOrBeforeRendered | components/LandingPage.tsx:104-110 | A rendered slot counts as past exactly when its minute of the day is at most the current hour times 60 plus the current minute. |
| Slots.RenderInjective | components/LandingPage.tsx:73-78 | Two different times of day never render alike. |
| Slots.AvailableTimeSlots | components/LandingPage.tsx:97-119 | Without a date the list is empty. Otherwise it holds generated slots that are bookable, and every bookable generated slot. |
| Slots.AvailableIsSubsequence | components/LandingPage.tsx:103 | The available slots are an order-preserving subsequence of the generated ones. |
| Slots.AvailableAvoidsBooked | components/LandingPage.tsx:112-117 | The time of a non-cancelled appointment on the selected date is never offered. |
| Slots.CancelledNeverBlocks | components/LandingPage.tsx:116 | Adding a cancelled appointment anywhere in the list changes no date's availability. |
| Slots.OtherDayIgnoresClock | components/LandingPage.tsx:104 | On a date other than today only booked times are removed. |
| Slots.TodayOnlyLaterSlots | components/LandingPage.tsx:104-110 | On today's date every offered time is strictly later than the current hour and minute. |
| Slots.OneBookingRemovesItsTime | components/LandingPage.tsx:112-117 | On another date, one non-cancelled booking removes exactly the slots equal to its time. |
| Slots.DefaultDayMinutes | components/LandingPage.tsx:67-93 | With a 60-minute consultation the day starts at 08:00, 09:10, 10:20, 11:30, 13:30, 14:40, 15:50, 17:00 and 18:10. |
| Slots.DefaultMorningSlots | components/LandingPage.tsx:72-80 | With the fallback duration the morning loop pushes "08:00", "09:10", "10:20" and "11:30". |
| Slots.DefaultAfternoonSlots | components/LandingPage.tsx:85-93 | With the fallback duration the afternoon loop pushes "13:30", "14:40", "15:50", "17:00" and "18:10". |
| Booking.FirstMatchExists | App.tsx:84 | If some client's e-mail matches, a first matching client exists at or before it. |
| Booking.FirstWithEmailUnique | App.tsx:84 | There is at most one first matching client. |
| Booking.FoundClientId | App.tsx:84 | The lookup finds nothing exactly when no e-mail matches ignoring case. Otherwise it returns the id of the first matching client. |
| Booking.FoundIsFirst | App.tsx:84 | The id found belongs to the first matching client, whichever index names it. |
| Booking.Register | App.tsx:83-106 | Exactly one appointment is appended: Clinical, scheduled, at the requested date and time, with the settings' price and duration. Exactly one income record is appended: category "Consulta", the settings' price, description "Agendamento Online - " and the name. A first match with a non-empty id leaves the clients unchanged and gives the appointment that id. Otherwise exactly one pending "First Contact" client with address "Pendente" is appended, and its id is used. |
| Booking.CaseInsensitiveDedup | App.tsx:84-89 | A second booking made straight after the first, with an e-mail differing only in letter case, resolves to the first booking's client id and adds no client. |
| Booking.RegisterKeepsIdsNonEmpty | App.tsx:84-89 | With a non-empty `Date.now()` stamp, every client id stays non-empty. |
| Booking.RegisterKeepsEmailsUnique | App.tsx:84-89 | The dedup invariant is preserved: if no two clients share an e-mail ignoring case, none do after a registration. |
| Booking.RegisterKeepsFirstMatch | App.tsx:84-89 | A registration only appends clients, so whichever client an e-mail first matched stays its first match. |
| Booking.RegisterLeavesFirstMatch | App.tsx:84-89 | After a registration, the client the appointment was booked for is the first client matching the visitor's e-mail. |
| Booking.RegisterAll | App.tsx:83-106 | A run of registrations only ever appends clients: the earlier clients are kept as a prefix. |
| Booking.RegisterAllKeepsIdsNonEmpty | App.tsx:84-89 | Over a run of registrations with non-empty stamps, client ids stay non-empty. |
| Booking.DedupAcrossBookings | App.tsx:84-89 | Once a visitor has booked, a later booking with an e-mail differing only in letter case resolves to the same client id and adds no client, whatever bookings came in between. |
| Booking.RegisterKeepsIdsUnique | App.tsx:86-92 | With fresh stamps, client ids and appointment ids stay unique and client ids stay non-empty. |
| Booking.RegisterKeepsNoDoubleBooking | App.tsx:91-103 | Booking a time the page offered for that date keeps every (date, time) held by at most one active appointment. |
| Booking.Store.constructor | App.tsx:21-54 | The store starts with the given settings and collections. |
| Booking.Store.RegisterNewBooking | App.tsx:83-106 | The method leaves the collections and returns the appointment exactly as `Register` describes, and does not touch the settings. |
| Wizard.BookingWizard.constructor | components/LandingPage.tsx:36-48 | The dialog starts hidden at step 1, with nothing selected and no confirmation. |
| Wizard.BookingWizard.Open | components/LandingPage.tsx:218 | Opening shows the dialog and changes nothing else. |
| Wizard.BookingWizard.SelectDate | components/LandingPage.tsx:505 | At step 1 the date is replaced; the chosen time is kept. Nothing else changes, and the dialog's invariant is preserved. |
| Wizard.BookingWizard.SelectTime | components/LandingPage.tsx:521-533 | At step 1 with a date, only a time offered for that date can be chosen: one of the day's slots for the store's configured duration that no active appointment in the store holds. |
| Wizard.BookingWizard.Proceed | components/LandingPage.tsx:537-539 | The dialog moves from step 1 to step 2 exactly when a date and a time are both present. |
| Wizard.BookingWizard.EditContact | components/LandingPage.tsx:560-598 | Contact details change only at step 2. |
| Wizard.BookingWizard.Submit | components/LandingPage.tsx:139-161 | With name, phone and e-mail filled in at step 2, the store registers the booking and the dialog shows the returned appointment at step 3. Otherwise nothing changes. |
| Wizard.BookingWizard.Close | components/LandingPage.tsx:163-171 | Closing hides the dialog and returns it to step 1, clearing the date, time, contact details, processing flag and confirmation. |
| Reports.FormFor | components/SessionReportManagement.tsx:67-89 | The editor loads the first report of the appointment, each missing field read as `''`. With no report it loads a blank form. |
| Reports.FormOf | components/SessionReportManagement.tsx:70-78 | A stored report with no fields opens as the blank form; one with every field present opens with exactly those values (`field \|\| ''`). |
| Reports.ReportFrom | components/SessionReportManagement.tsx:96-103 | The saved report has the appointment's id as its id and appointment id, the editing patient's id and the save timestamp. Its content is observations, evolution and conduct joined by line breaks. It reads back as exactly the form it was built from. |
| Reports.Upsert | components/SessionReportManagement.tsx:105-108 | After a save the new report is last. No other report belongs to its appointment. Every report of another appointment is kept. |
| Reports.UpsertKeepsOrder | components/SessionReportManagement.tsx:106 | The kept reports are an order-preserving part of the old list. |
| Reports.UpsertTwice | components/SessionReportManagement.tsx:100-108 | Saving twice for one appointment equals saving the second report alone. The same form saved twice is saved once, whatever the timestamps. |
| Reports.SaveThenOpen | components/SessionReportManagement.tsx:67-108 | Reopening an appointment just saved loads exactly the saved form. |
| Reports.ContentSplits | components/SessionReportManagement.tsx:101 | The content is observations, evolution and conduct on three lines, and splitting on line breaks recovers them. |
| Reports.SavedContentSplits | components/SessionReportManagement.tsx:101 | Splitting a saved report's content on line breaks gives back the form's observations, evolution and conduct, when none of them holds a line break. |
| Reports.ReportEditor.constructor | components/SessionReportManagement.tsx:21-30 | The editor starts closed with a blank form. |
| Reports.ReportEditor.OpenEditor | components/SessionReportManagement.tsx:67-91 | Opening loads the appointment's form, targets the appointment and its client, and keeps the reports. |
| Reports.ReportEditor.EditForm | components/SessionReportManagement.tsx:113-170 | While an appointment is being edited, a text area replaces the form and nothing else. With the editor closed there is no text area, and nothing changes. |
| Reports.ReportEditor.Save | components/SessionReportManagement.tsx:93-111 | With no open target nothing changes. Otherwise the reports become the upsert of the report built from the form, and the editor closes. |
| Reports.ReportEditor.Cancel | components/SessionReportManagement.tsx:121 | Cancelling closes the editor and keeps reports and form. |
| Reports.ClientAppointments | components/SessionReportManagement.tsx:56-61 | With no patient selected the history is empty. Otherwise it is a permutation of the patient's appointments, newest date first. |
| Reports.ClientAppointmentsStable | components/SessionReportManagement.tsx:56-61 | Appointments on the same date appear in the history in their order in the appointment list. |
| Reports.ClientAppointmentsExact | components/SessionReportManagement.tsx:56-61 | An appointment is in the history exactly when it belongs to the selected patient. |
| Reports.LastDate | components/SessionReportManagement.tsx:34-43 | A patient's last date is `'0000-00-00'` without appointments. Otherwise it is the date of one of the patient's appointments, and no appointment of theirs is later. |
| Reports.LastDateIsMax | components/SessionReportManagement.tsx:36-38 | The head of the patient's sorted appointments is one of them and is not older than any. |
| Reports.Rows | components/SessionReportManagement.tsx:34-44 | Every patient is listed once, in order, with their last date. |
| Reports.RowsMembers | components/SessionReportManagement.tsx:34-44 | A row is listed exactly when its patient is a client and its date is that patient's last date. |
| Reports.FilteredClients | components/SessionReportManagement.tsx:33-54 | The list is sorted by last date, newest first. With a blank query it is a permutation of all rows; otherwise a permutation of the matching rows. |
| Reports.FilteredClientsStable | components/SessionReportManagement.tsx:33-54 | Patients with the same last date, including all patients without appointments (`'0000-00-00'`), appear in client-list order, with or without a query. |
| Reports.FilteredClientsMembers | components/SessionReportManagement.tsx:46-53 | A patient appears exactly when listed with their last date and the trimmed query is blank, or the lower-cased name or e-mail contains the lower-cased query. |
| Reports.SearchIgnoresCase | components/SessionReportManagement.tsx:46-49 | The patient list is the same for a query and for its lower-cased form. |

## Left out

- Loading and saving the collections in `localStorage`, with its JSON parsing (App.tsx:17-71), and the login flag (App.tsx:73-81) are browser I/O.
- The São Paulo wall clock (`getBrazilDateTime`, `todayStr`) becomes the `Clock` parameter.
- The slot loops count minutes since midnight. The `Date` objects, daylight-saving changes and the locale's time formatting beyond two-digit `"HH:MM"` are not modelled.
- `Date.now()` and `Math.random()` become the `Stamps` parameter. Their freshness is a precondition of `Booking.RegisterKeepsIdsUnique`.
- The confirmation message (`generateConfirmationMessage`) and the 2-second pause in the submit handler are not modelled. The message is never used, so only its effect on the dialog's state is kept.
- The intermediate "processing" screen is not modelled as an observable state. `Wizard.BookingWizard.Submit` sets and clears the flag within one call.
- Wizard.BookingWizard.Submit: closing the dialog while a submission is pending is not modelled. On the page, the close button stays on screen during the processing spinner (components/LandingPage.tsx:461-466, 479-485). `closeBooking` clears every field (components/LandingPage.tsx:163-171). The booking is already registered by then (components/LandingPage.tsx:143). When the handler resumes, it sets the confirmed appointment and step 3 on the hidden, date-less dialog (components/LandingPage.tsx:154-155). Reopening the dialog then shows the old confirmation. `Wizard.BookingWizard.Valid` holds only because the model treats the submission as one atomic step.
- Strings are sequences of Unicode scalar values. Lone UTF-16 surrogates, which JavaScript strings may contain, are not represented.
- The `new Date().toISOString()` save timestamp is a parameter.
- JSX rendering, scrolling, the menu, and `toLocaleDateString` formatting are presentation.
- The browser's `type="email"` check and the date input's `min` attribute are presentation. The model accepts any non-empty e-mail and any date string.
- `components/NutritionalCalculators.tsx` is not part of this model: its results are floating-point formulas.
- `services/geminiService.ts`, `components/AdminLayout.tsx` and `components/ErrorBoundary.tsx` are not part of this model: network calls, navigation and layout.
- `types.ts` is not part of this model. The field types follow their use in the modelled files, with optional fields as `Option`.
- Text.Lower: lower-cases ASCII letters only, where `toLowerCase` also folds other alphabets.
- Text.Number: reads only strings of decimal digits. Signs, decimals and surrounding spaces give NaN here, though `Number` accepts them. Parsed times are always rendered slots, which are digit strings.
- Text.LexLe: orders strings by code point. This agrees with `localeCompare` on `"YYYY-MM-DD"` dates, not on general text.
- Slots.SlotDuration: treats only 0 as a falsy duration. An absent or NaN duration is not modelled.
- Slots.GenerateTimeSlots: requires the step to be positive. With a duration of -10 or less the source's loops never end.
- Wizard.BookingWizard.SelectTime: requires a positive step for the same reason as `Slots.GenerateTimeSlots`.
- Prices and durations are integers. Fractional amounts in JavaScript numbers are not modelled.

=== FILE: Booking.dfy ===
/**
 * Booking registration (`registerNewBooking`): the visitor's contact details
 * and chosen date and time become, in the application's collections, a client
 * (an existing one found by e-mail, ignoring letter case, or a new pending
 * one), one scheduled appointment and one income record.
 *
 * `Date.now()` and `Math.random()` are not modelled: their string forms arrive
 * as the `Stamps` parameter.
 */
module Booking {
  import opened Wrappers
  import opened Text
  import opened Seqs
  import opened Domain
  import opened Slots

  const PendingAddress := "Pendente"
  const FirstContact := "First Contact"
  const ClinicalKind := "Clinical"
  const MeetPrefix := "https://meet.google.com/karina-"
  const IncomePrefix := "Agendamento Online - "
  const ConsultationCategory := "Consulta"

  /**
   * The varying parts of the identifiers one registration creates: the text of
   * `Date.now()` at each of its three uses and the random meeting-room token.
   */
  datatype Stamps = Stamps(clientStamp: string, appointmentStamp: string, financeStamp: string, linkToken: string)

  /** The three collections the registration appends to. */
  datatype Collections = Collections(clients: seq<Client>, appointments: seq<Appointment>, finances: seq<FinancialRecord>)

  /** What one registration leaves behind: the new collections and the appointment it returns. */
  datatype Booked = Booked(after: Collections, appointment: Appointment)

  // ---------------------------------------------------------- client lookup

  /** Two e-mail addresses are the same once both are lower-cased. */
  predicate SameEmail(a: string, b: string) {
    Lower(a) == Lower(b)
  }

  function EmailTest(email: string): Client -> bool {
    (c: Client) => SameEmail(c.email, email)
  }

  /** `i` is the position of the first client whose e-mail matches `email`. */
  predicate FirstWithEmail(clients: seq<Client>, email: string, i: int) {
    && 0 <= i < |clients|
    && SameEmail(clients[i].email, email)
    && forall j :: 0 <= j < i ==> !SameEmail(clients[j].email, email)
  }

  /** There is at most one first match. */
  lemma FirstWithEmailUnique(clients: seq<Client>, email: string, i: int, k: int)
    requires FirstWithEmail(clients, email, i) && FirstWithEmail(clients, email, k)
    ensures i == k
  {
  }

  /** Some index at or before `j` is the first match, when `j` matches. */
  lemma {:induction false} FirstMatchExists(clients: seq<Client>, email: string, j: int)
    requires 0 <= j < |clients| && SameEmail(clients[j].email, email)
    ensures exists k :: 0 <= k <= j && FirstWithEmail(clients, email, k)
    decreases j
  {
    if forall m :: 0 <= m < j ==> !SameEmail(clients[m].email, email) {
      assert FirstWithEmail(clients, email, j);
    } else {
      var m :| 0 <= m < j && SameEmail(clients[m].email, email);
      FirstMatchExists(clients, email, m);
    }
  }

  /** `clients.find(c => c.email.toLowerCase() === email.toLowerCase())?.id`. */
  function FoundClientId(clients: seq<Client>, email: string): (r: Option<string>)
    ensures r.None? <==> forall i :: 0 <= i < |clients| ==> !SameEmail(clients[i].email, email)
    ensures r.Some? ==> exists i :: FirstWithEmail(clients, email, i) && clients[i].id == r.value
  {
    match Find(clients, EmailTest(email))
    case None => None
    case Some(c) => Some(c.id)
  }

  /** The id found is the one of the first matching client, whichever index names it. */
  lemma FoundIsFirst(clients: seq<Client>, email: string)
    ensures var found := FoundClientId(clients, email);
      (found.None? <==> forall i :: !FirstWithEmail(clients, email, i))
      && (found.Some? ==> forall i :: FirstWithEmail(clients, email, i) ==> clients[i].id == found.value)
  {
    var found := FoundClientId(clients, email);
    if found.Some? {
      var k :| FirstWithEmail(clients, email, k) && clients[k].id == found.value;
      forall i | FirstWithEmail(clients, email, i) ensures clients[i].id == found.value {
        FirstWithEmailUnique(clients, email, i, k);
      }
    } else {
      forall i ensures !FirstWithEmail(clients, email, i) { }
    }
  }

  // ------------------------------------------------------------ registration

  /** The client record created on a first booking. */
  function NewClient(info: ContactInfo, id: string): Client {
    Client(id, info.name, PendingAddress, info.phone, info.email, Pending, FirstContact, None)
  }

  /** The income record each booking adds. */
  function BookingIncome(info: ContactInfo, settings: Settings, date: string, st: Stamps): FinancialRecord {
    FinancialRecord("f-" + st.financeStamp, IncomePrefix + info.name, settings.defaultPrice, Income, date, ConsultationCategory)
  }

  /** The appointment each booking adds, for the client `clientId`. */
  function NewAppointment(clientId: string, settings: Settings, date: string, time: string, st: Stamps): Appointment {
    Appointment("app-" + st.appointmentStamp, clientId, date, time, ClinicalKind, Scheduled,
                MeetPrefix + st.linkToken, settings.defaultPrice, settings.defaultDuration)
  }

  /**
   * `registerNewBooking`. A found client whose id is the empty string counts
   * as not found (`!clientId`), so a new client is created then too.
   */
  function Register(c: Collections, settings: Settings, info: ContactInfo, date: string, time: string, st: Stamps): (r: Booked)
    ensures r.after.appointments == c.appointments + [r.appointment]
    ensures r.after.finances == c.finances + [BookingIncome(info, settings, date, st)]
    ensures r.appointment == NewAppointment(r.appointment.clientId, settings, date, time, st)
    ensures forall i :: FirstWithEmail(c.clients, info.email, i) && c.clients[i].id != "" ==>
      r.after.clients == c.clients && r.appointment.clientId == c.clients[i].id
    ensures (forall i :: FirstWithEmail(c.clients, info.email, i) ==> c.clients[i].id == "") ==>
      r.after.clients == c.clients + [NewClient(info, st.clientStamp)] && r.appointment.clientId == st.clientStamp
  {
    var found := FoundClientId(c.clients, info.email);
    FoundIsFirst(c.clients, info.email);
    var existing := found.Some? && found.value != "";
    var clientId := if existing then found.value else st.clientStamp;
    var clients := if existing then c.clients else c.clients + [NewClient(info, clientId)];
    var app := NewAppointment(clientId, settings, date, time, st);
    Booked(Collections(clients, c.appointments + [app], c.finances + [BookingIncome(info, settings, date, st)]), app)
  }

  // -------------------------------------------------------------- invariants

  predicate ClientIdsNonEmpty(clients: seq<Client>) {
    forall i :: 0 <= i < |clients| ==> clients[i].id != ""
  }

  predicate ClientIdsUnique(clients: seq<Client>) {
    forall i, j :: 0 <= i < |clients| && 0 <= j < |clients| && i != j ==> clients[i].id != clients[j].id
  }

  predicate AppointmentIdsUnique(apps: seq<Appointment>) {
    forall i, j :: 0 <= i < |apps| && 0 <= j < |apps| && i != j ==> apps[i].id != apps[j].id
  }

  /** No two appointments that are not cancelled share a date and a time. */
  predicate NoDoubleBooking(apps: seq<Appointment>) {
    forall i, j ::
      (0 <= i < |apps| && 0 <= j < |apps| && i != j && apps[i].status != Cancelled && apps[j].status != Cancelled) ==>
      (apps[i].date != apps[j].date || apps[i].time != apps[j].time)
  }

  /**
   * A second booking made straight after the first, with an e-mail that
   * differs only in letter case, goes to the same client: it adds no client
   * and reuses the first one's id. `DedupAcrossBookings` allows any bookings
   * in between.
   */
  lemma CaseInsensitiveDedup(c: Collections, settings: Settings, first: ContactInfo, second: ContactInfo,
                             date1: string, time1: string, st1: Stamps,
                             date2: string, time2: string, st2: Stamps)
    requires ClientIdsNonEmpty(c.clients) && st1.clientStamp != ""
    requires SameEmail(first.email, second.email)
    ensures var r1 := Register(c, settings, first, date1, time1, st1);
            var r2 := Register(r1.after, settings, second, date2, time2, st2);
            r2.after.clients == r1.after.clients && r2.appointment.clientId == r1.appointment.clientId
  {
    var r1 := Register(c, settings, first, date1, time1, st1);
    var cs := r1.after.clients;
    forall x: string ensures SameEmail(x, first.email) == SameEmail(x, second.email) { }
    if i :| FirstWithEmail(c.clients, first.email, i) {
      assert cs == c.clients;
      assert FirstWithEmail(cs, second.email, i);
    } else {
      var n := |c.clients|;
      assert cs == c.clients + [NewClient(first, st1.clientStamp)];
      assert cs[n] == NewClient(first, st1.clientStamp);
      forall j | 0 <= j < n ensures !SameEmail(cs[j].email, second.email) {
        if SameEmail(cs[j].email, second.email) {
          assert cs[j] == c.clients[j];
          FirstMatchExists(c.clients, first.email, j);
        }
      }
      assert FirstWithEmail(cs, second.email, n);
    }
  }

  /** No two clients have the same e-mail address, ignoring letter case. */
  predicate EmailsUnique(clients: seq<Client>) {
    forall i, j :: 0 <= i < |clients| && 0 <= j < |clients| && i != j ==> !SameEmail(clients[i].email, clients[j].email)
  }

  /** A registration with a non-empty client stamp keeps every client id non-empty. */
  lemma RegisterKeepsIdsNonEmpty(c: Collections, settings: Settings, info: ContactInfo, date: string, time: string, st: Stamps)
    requires ClientIdsNonEmpty(c.clients) && st.clientStamp != ""
    ensures ClientIdsNonEmpty(Register(c, settings, info, date, time, st).after.clients)
  {
    var r := Register(c, settings, info, date, time, st);
    if r.after.clients != c.clients {
      assert forall i :: !FirstWithEmail(c.clients, info.email, i);
      assert r.after.clients == c.clients + [NewClient(info, st.clientStamp)];
    }
  }

  /**
   * While client ids are non-empty, a registration creates a client only for
   * an e-mail no client has yet, so e-mails stay unique ignoring case.
   */
  lemma RegisterKeepsEmailsUnique(c: Collections, settings: Settings, info: ContactInfo, date: string, time: string, st: Stamps)
    requires EmailsUnique(c.clients) && ClientIdsNonEmpty(c.clients) && st.clientStamp != ""
    ensures var r := Register(c, settings, info, date, time, st);
      EmailsUnique(r.after.clients) && ClientIdsNonEmpty(r.after.clients)
  {
    RegisterKeepsIdsNonEmpty(c, settings, info, date, time, st);
    var r := Register(c, settings, info, date, time, st);
    var n := |c.clients|;
    if r.after.clients != c.clients {
      var cs := r.after.clients;
      assert forall i :: !FirstWithEmail(c.clients, info.email, i);
      assert cs == c.clients + [NewClient(info, st.clientStamp)];
      forall j | 0 <= j < n ensures !SameEmail(cs[j].email, info.email) {
        if SameEmail(cs[j].email, info.email) {
          FirstMatchExists(c.clients, info.email, j);
        }
      }
      assert cs[n].email == info.email;
    }
  }

  /** A registration appends clients only, so an earlier first match stays the first match. */
  lemma RegisterKeepsFirstMatch(c: Collections, settings: Settings, info: ContactInfo, date: string, time: string, st: Stamps,
                                email: string, k: int)
    requires FirstWithEmail(c.clients, email, k)
    ensures FirstWithEmail(Register(c, settings, info, date, time, st).after.clients, email, k)
  {
    var r := Register(c, settings, info, date, time, st);
    assert r.after.clients[..|c.clients|] == c.clients;
  }

  /** After a registration, the client it booked for is the first match of the visitor's e-mail. */
  lemma RegisterLeavesFirstMatch(c: Collections, settings: Settings, info: ContactInfo, date: string, time: string, st: Stamps)
    requires ClientIdsNonEmpty(c.clients) && st.clientStamp != ""
    ensures var r := Register(c, settings, info, date, time, st);
      exists k :: FirstWithEmail(r.after.clients, info.email, k) && r.after.clients[k].id == r.appointment.clientId
  {
    var r := Register(c, settings, info, date, time, st);
    var cs := r.after.clients;
    if i :| FirstWithEmail(c.clients, info.email, i) {
      assert cs == c.clients && FirstWithEmail(cs, info.email, i);
    } else {
      var n := |c.clients|;
      assert cs == c.clients + [NewClient(info, st.clientStamp)];
      forall j | 0 <= j < n ensures !SameEmail(cs[j].email, info.email) {
        if SameEmail(cs[j].email, info.email) {
          assert cs[j] == c.clients[j];
          FirstMatchExists(c.clients, info.email, j);
        }
      }
      assert FirstWithEmail(cs, info.email, n);
    }
  }

  /** One booking request from the page: contact details, date, time and stamps. */
  datatype Request = Request(info: ContactInfo, date: string, time: string, st: Stamps)

  /** A run of registrations, one after the other. */
  function RegisterAll(c: Collections, settings: Settings, reqs: seq<Request>): (r: Collections)
    ensures |r.clients| >= |c.clients| && r.clients[..|c.clients|] == c.clients
    decreases |reqs|
  {
    if reqs == [] then c
    else
      var q := reqs[0];
      var next := Register(c, settings, q.info, q.date, q.time, q.st).after;
      assert next.clients[..|c.clients|] == c.clients;
      var r := RegisterAll(next, settings, reqs[1..]);
      assert r.clients[..|c.clients|] == r.clients[..|next.clients|][..|c.clients|];
      r
  }

  /** Appending clients keeps a first match the first match. */
  lemma FirstMatchKeptByPrefix(clients: seq<Client>, more: seq<Client>, email: string, k: int)
    requires FirstWithEmail(clients, email, k)
    requires |more| >= |clients| && more[..|clients|] == clients
    ensures FirstWithEmail(more, email, k)
  {
    assert forall j :: 0 <= j <= k ==> more[j] == clients[j];
  }

  /** A run of registrations with non-empty client stamps keeps every client id non-empty. */
  lemma {:induction false} RegisterAllKeepsIdsNonEmpty(c: Collections, settings: Settings, reqs: seq<Request>)
    requires ClientIdsNonEmpty(c.clients)
    requires forall i :: 0 <= i < |reqs| ==> reqs[i].st.clientStamp != ""
    ensures ClientIdsNonEmpty(RegisterAll(c, settings, reqs).clients)
    decreases |reqs|
  {
    if reqs != [] {
      var q := reqs[0];
      RegisterKeepsIdsNonEmpty(c, settings, q.info, q.date, q.time, q.st);
      RegisterAllKeepsIdsNonEmpty(Register(c, settings, q.info, q.date, q.time, q.st).after, settings, reqs[1..]);
    }
  }

  /**
   * The e-mail dedup invariant: once a visitor has booked, every later booking
   * whose e-mail differs only in letter case, however many other bookings came
   * in between, adds no client and goes to the same client id.
   */
  lemma {:induction false} DedupAcrossBookings(c: Collections, settings: Settings, first: Request, between: seq<Request>, second: Request)
    requires ClientIdsNonEmpty(c.clients) && first.st.clientStamp != ""
    requires forall i :: 0 <= i < |between| ==> between[i].st.clientStamp != ""
    requires SameEmail(first.info.email, second.info.email)
    ensures var r1 := Register(c, settings, first.info, first.date, first.time, first.st);
            var mid := RegisterAll(r1.after, settings, between);
            var r2 := Register(mid, settings, second.info, second.date, second.time, second.st);
            r2.after.clients == mid.clients && r2.appointment.clientId == r1.appointment.clientId
  {
    var r1 := Register(c, settings, first.info, first.date, first.time, first.st);
    RegisterLeavesFirstMatch(c, settings, first.info, first.date, first.time, first.st);
    var k :| FirstWithEmail(r1.after.clients, first.info.email, k) && r1.after.clients[k].id == r1.appointment.clientId;
    RegisterKeepsIdsNonEmpty(c, settings, first.info, first.date, first.time, first.st);
    var mid := RegisterAll(r1.after, settings, between);
    FirstMatchKeptByPrefix(r1.after.clients, mid.clients, first.info.email, k);
    RegisterAllKeepsIdsNonEmpty(r1.after, settings, between);
    forall x: string ensures SameEmail(x, first.info.email) == SameEmail(x, second.info.email) { }
    assert FirstWithEmail(mid.clients, second.info.email, k);
  }

  /**
   * With identifiers not in use yet, a registration keeps client ids and
   * appointment ids unique, and every client id non-empty.
   */
  lemma RegisterKeepsIdsUnique(c: Collections, settings: Settings, info: ContactInfo, date: string, time: string, st: Stamps)
    requires ClientIdsUnique(c.clients) && ClientIdsNonEmpty(c.clients)
    requires AppointmentIdsUnique(c.appointments)
    requires st.clientStamp != ""
    requires forall i :: 0 <= i < |c.clients| ==> c.clients[i].id != st.clientStamp
    requires forall i :: 0 <= i < |c.appointments| ==> c.appointments[i].id != "app-" + st.appointmentStamp
    ensures var r := Register(c, settings, info, date, time, st);
      ClientIdsUnique(r.after.clients) && ClientIdsNonEmpty(r.after.clients)
      && AppointmentIdsUnique(r.after.appointments)
  {
    var r := Register(c, settings, info, date, time, st);
    var n := |c.clients|;
    if r.after.clients != c.clients {
      assert forall i :: !FirstWithEmail(c.clients, info.email, i);
      assert r.after.clients == c.clients + [NewClient(info, st.clientStamp)];
      assert r.after.clients[n].id == st.clientStamp;
    }
    assert r.after.appointments[|c.appointments|].id == "app-" + st.appointmentStamp;
  }

  /**
   * Booking a time the page offered for the date keeps the schedule free of
   * double bookings: the offered time is not held by any active appointment.
   */
  lemma RegisterKeepsNoDoubleBooking(c: Collections, settings: Settings, info: ContactInfo,
                                     date: string, time: string, st: Stamps, clock: Clock, slots: seq<string>)
    requires NoDoubleBooking(c.appointments)
    requires time in AvailableTimeSlots(date, clock, slots, c.appointments)
    ensures NoDoubleBooking(Register(c, settings, info, date, time, st).after.appointments)
  {
    var apps := c.appointments;
    var r := Register(c, settings, info, date, time, st);
    var n := |apps|;
    var k :| 0 <= k < |AvailableTimeSlots(date, clock, slots, apps)| && AvailableTimeSlots(date, clock, slots, apps)[k] == time;
    assert !IsBooked(apps, date, time);
    var after := r.after.appointments;
    forall i, j | 0 <= i < |after| && 0 <= j < |after| && i != j && after[i].status != Cancelled && after[j].status != Cancelled
      ensures after[i].date != after[j].date || after[i].time != after[j].time
    {
      if i == n {
        assert !Blocks(apps[j], date, time);
      } else if j == n {
        assert !Blocks(apps[i], date, time);
      } else {
        assert after[i] == apps[i] && after[j] == apps[j];
      }
    }
  }

  // ------------------------------------------------------------------ state

  /** The collections `App` keeps as state, with the settings the booking reads. */
  class Store {
    var clients: seq<Client>
    var appointments: seq<Appointment>
    var finances: seq<FinancialRecord>
    var settings: Settings

    constructor (settings: Settings, clients: seq<Client>, appointments: seq<Appointment>, finances: seq<FinancialRecord>)
      ensures this.settings == settings && this.clients == clients
      ensures this.appointments == appointments && this.finances == finances
    {
      this.settings := settings;
      this.clients := clients;
      this.appointments := appointments;
      this.finances := finances;
    }

    function Contents(): Collections
      reads this
    {
      Collections(clients, appointments, finances)
    }

    /**
     * `registerNewBooking`: looks the client up, appends a client when none is
     * found, then appends the appointment and the income record and returns
     * the appointment.
     */
    method RegisterNewBooking(info: ContactInfo, date: string, time: string, st: Stamps) returns (app: Appointment)
      modifies this
      ensures Booked(Contents(), app) == Register(old(Contents()), settings, info, date, time, st)
      ensures settings == old(settings)
    {
      // The steps of `Register`, each applied to the collection it changes.
      var clientId := FoundClientId(clients, info.email);
      var id: string;
      if clientId.None? || clientId.value == "" {
        id := st.clientStamp;
        clients := clients + [NewClient(info, id)];
      } else {
        id := clientId.value;
      }
      app := NewAppointment(id, settings, date, time, st);
      appointments := appointments + [app];
      finances := finances + [BookingIncome(info, settings, date, st)];
    }
  }
}

=== FILE: Domain.dfy ===
/**
 * The entities the clinic keeps in its collections, as the booking page, the
 * booking registration and the session-report screen use them.
 */
module Domain {
  import opened Wrappers

  datatype ClientStatus = Active | Pending | Inactive

  datatype Client = Client(
    id: string,
    name: string,
    address: string,
    phone: string,
    email: string,
    status: ClientStatus,
    treatmentStage: string,
    lastSessionDate: Option<string>)

  /** Only `Cancelled` matters to the core: every other status keeps a slot taken. */
  datatype AppointmentStatus = Scheduled | Cancelled | Completed

  datatype Appointment = Appointment(
    id: string,
    clientId: string,
    date: string,        // "YYYY-MM-DD"
    time: string,        // "HH:MM"
    kind: string,        // the source's `type`, e.g. "Clinical"
    status: AppointmentStatus,
    meetLink: string,
    price: int,
    duration: int)

  datatype RecordKind = Income | Expense

  datatype FinancialRecord = FinancialRecord(
    id: string,
    description: string,
    amount: int,
    kind: RecordKind,
    date: string,
    category: string)

  datatype Settings = Settings(defaultPrice: int, defaultDuration: int)

  /** What the booking form collects from a visitor. */
  datatype ContactInfo = ContactInfo(name: string, email: string, phone: string)
}

=== FILE: Reports.dfy ===
/**
 * The session-report screen of the admin area: the editor that loads and saves
 * one report per appointment, a patient's appointment history, and the patient
 * list with its search box, newest last appointment first.
 */
module Reports {
  import opened Wrappers
  import opened Text
  import opened Seqs
  import opened Domain

  /** The seven text areas of the report editor. */
  datatype ReportForm = ReportForm(
    observations: string,
    evolution: string,
    conduct: string,
    healthHistory: string,
    eatingHabits: string,
    anthropometrics: string,
    patientGoals: string)

  /** A saved report. The seven form fields are optional in stored reports. */
  datatype SessionReport = SessionReport(
    id: string,
    appointmentId: string,
    clientId: string,
    date: string,
    content: string,
    observations: Option<string>,
    evolution: Option<string>,
    conduct: Option<string>,
    healthHistory: Option<string>,
    eatingHabits: Option<string>,
    anthropometrics: Option<string>,
    patientGoals: Option<string>)

  /** The appointment (and its client) whose report is open in the editor. */
  datatype EditTarget = EditTarget(appointmentId: string, clientId: string)

  const BlankForm := ReportForm("", "", "", "", "", "", "")

  /** The separator between the three parts of a report's `content`. */
  const NewLine := '\n'

  // ------------------------------------------------------------------ editor

  /** A stored report's fields as the editor shows them: `field || ''`. */
  function FormOf(r: SessionReport): (f: ReportForm)
    ensures (r.observations.None? && r.evolution.None? && r.conduct.None? && r.healthHistory.None?
             && r.eatingHabits.None? && r.anthropometrics.None? && r.patientGoals.None?) ==> f == BlankForm
    ensures (r.observations.Some? && r.evolution.Some? && r.conduct.Some? && r.healthHistory.Some?
             && r.eatingHabits.Some? && r.anthropometrics.Some? && r.patientGoals.Some?) ==>
      f == ReportForm(r.observations.value, r.evolution.value, r.conduct.value, r.healthHistory.value,
                      r.eatingHabits.value, r.anthropometrics.value, r.patientGoals.value)
  {
    ReportForm(r.observations.GetOr(""), r.evolution.GetOr(""), r.conduct.GetOr(""),
               r.healthHistory.GetOr(""), r.eatingHabits.GetOr(""),
               r.anthropometrics.GetOr(""), r.patientGoals.GetOr(""))
  }

  function ForAppointment(appointmentId: string): SessionReport -> bool {
    (r: SessionReport) => r.appointmentId == appointmentId
  }

  function NotForAppointment(appointmentId: string): SessionReport -> bool {
    (r: SessionReport) => r.appointmentId != appointmentId
  }

  /**
   * The form `openEditor` loads: the fields of the first report stored for the
   * appointment, or a blank form when there is none.
   */
  function FormFor(reports: seq<SessionReport>, appointmentId: string): (f: ReportForm)
    ensures (forall i :: 0 <= i < |reports| ==> reports[i].appointmentId != appointmentId) ==> f == BlankForm
    ensures forall i ::
      (0 <= i < |reports| && reports[i].appointmentId == appointmentId
       && (forall j :: 0 <= j < i ==> reports[j].appointmentId != appointmentId)) ==> f == FormOf(reports[i])
  {
    match Find(reports, ForAppointment(appointmentId))
    case None => BlankForm
    case Some(r) => FormOf(r)
  }

  /** The text `handleSave` stores as `content`: the first three fields on three lines. */
  function Content(form: ReportForm): string {
    form.observations + [NewLine] + form.evolution + [NewLine] + form.conduct
  }

  /** The report `handleSave` builds for the edited appointment at time `timestamp`. */
  function ReportFrom(target: EditTarget, form: ReportForm, timestamp: string): (r: SessionReport)
    ensures r.id == target.appointmentId && r.appointmentId == target.appointmentId
    ensures r.clientId == target.clientId && r.date == timestamp
    ensures r.content == form.observations + [NewLine] + form.evolution + [NewLine] + form.conduct
    ensures FormOf(r) == form
  {
    SessionReport(target.appointmentId, target.appointmentId, target.clientId, timestamp, Content(form),
                  Some(form.observations), Some(form.evolution), Some(form.conduct),
                  Some(form.healthHistory), Some(form.eatingHabits),
                  Some(form.anthropometrics), Some(form.patientGoals))
  }

  /**
   * The update `handleSave` applies to the report list: every report of the
   * same appointment is dropped, the others keep their order, and the new one
   * goes last.
   */
  function Upsert(reports: seq<SessionReport>, report: SessionReport): (r: seq<SessionReport>)
    ensures |r| >= 1 && r[|r| - 1] == report
    ensures forall i :: 0 <= i < |r| - 1 ==> r[i].appointmentId != report.appointmentId && r[i] in reports
    ensures forall i :: 0 <= i < |reports| && reports[i].appointmentId != report.appointmentId ==> reports[i] in r[..|r| - 1]
  {
    Filter(reports, NotForAppointment(report.appointmentId)) + [report]
  }

  /** The reports kept by an upsert are an order-preserving part of the old list. */
  lemma UpsertKeepsOrder(reports: seq<SessionReport>, report: SessionReport)
    ensures var r := Upsert(reports, report);
      IsSubsequence(r[..|r| - 1], reports)
  {
    var kept := Filter(reports, NotForAppointment(report.appointmentId));
    FilterIsSubsequence(reports, NotForAppointment(report.appointmentId));
    assert Upsert(reports, report)[..|kept|] == kept;
  }

  /**
   * Saving twice for one appointment leaves what the second save alone would:
   * the first report is replaced. With the same form this is saving the same
   * report twice, whatever the timestamps.
   */
  lemma {:induction false} UpsertTwice(reports: seq<SessionReport>, first: SessionReport, second: SessionReport)
    requires first.appointmentId == second.appointmentId
    ensures Upsert(Upsert(reports, first), second) == Upsert(reports, second)
  {
    var p := NotForAppointment(first.appointmentId);
    var kept := Filter(reports, p);
    FilterConcat(kept, [first], p);
    FilterIdempotent(reports, p);
    assert Filter([first], p) == [] by {
      assert [first][1..] == [];
    }
  }

  /** Saving a form and opening the same appointment again loads that form back. */
  lemma SaveThenOpen(reports: seq<SessionReport>, target: EditTarget, form: ReportForm, timestamp: string)
    ensures FormFor(Upsert(reports, ReportFrom(target, form, timestamp)), target.appointmentId) == form
  {
    var r := Upsert(reports, ReportFrom(target, form, timestamp));
    assert forall j :: 0 <= j < |r| - 1 ==> r[j].appointmentId != target.appointmentId;
  }

  /** The three parts of the content come back by splitting on line breaks, when they have none. */
  lemma ContentSplits(form: ReportForm)
    requires NewLine !in form.observations && NewLine !in form.evolution && NewLine !in form.conduct
    ensures Split(Content(form), NewLine) == [form.observations, form.evolution, form.conduct]
  {
    var o, e, c := form.observations, form.evolution, form.conduct;
    assert Content(form) == o + [NewLine] + (e + [NewLine] + c);
    SplitAtSeparator(o, e + [NewLine] + c, NewLine);
    SplitAtSeparator(e, c, NewLine);
    SplitNoSeparator(c, NewLine);
  }

  /** A saved report's content splits back into the form's first three fields, when they have no line break. */
  lemma SavedContentSplits(target: EditTarget, form: ReportForm, timestamp: string)
    requires NewLine !in form.observations && NewLine !in form.evolution && NewLine !in form.conduct
    ensures Split(ReportFrom(target, form, timestamp).content, NewLine)
         == [form.observations, form.evolution, form.conduct]
  {
    ContentSplits(form);
  }

  /** The editor's state: the stored reports, the open target and the form. */
  class ReportEditor {
    var reports: seq<SessionReport>
    var editing: Option<EditTarget>
    var form: ReportForm

    constructor (reports: seq<SessionReport>)
      ensures this.reports == reports && editing.None? && form == BlankForm
    {
      this.reports := reports;
      editing := None;
      form := BlankForm;
    }

    /** `openEditor(app)`: loads the appointment's report, or a blank form, and targets it. */
    method OpenEditor(app: Appointment)
      modifies this
      ensures form == FormFor(old(reports), app.id)
      ensures editing == Some(EditTarget(app.id, app.clientId))
      ensures reports == old(reports)
    {
      form := FormFor(reports, app.id);
      editing := Some(EditTarget(app.id, app.clientId));
    }

    /**
     * One of the text areas: `setFormData({...formData, field: value})`. The
     * text areas are on screen only while an appointment is being edited.
     */
    method EditForm(newForm: ReportForm)
      modifies this
      ensures form == (if old(editing).Some? then newForm else old(form))
      ensures reports == old(reports) && editing == old(editing)
    {
      if editing.Some? {
        form := newForm;
      }
    }

    /**
     * `handleSave`: without an open target nothing happens; otherwise the
     * report built from the form replaces the appointment's old one and the
     * editor closes. The form keeps its contents.
     */
    method Save(timestamp: string)
      modifies this
      ensures old(editing).None? ==> reports == old(reports) && editing == old(editing)
      ensures old(editing).Some? ==>
        reports == Upsert(old(reports), ReportFrom(old(editing).value, old(form), timestamp)) && editing.None?
      ensures form == old(form)
    {
      if editing.Some? {
        var report := ReportFrom(editing.value, form, timestamp);
        // `Upsert`, written as the `setReports` updater does it.
        reports := Filter(reports, NotForAppointment(editing.value.appointmentId)) + [report];
        editing := None;
      }
    }

    /** The back and cancel buttons: `setEditingReport(null)`. */
    method Cancel()
      modifies this
      ensures editing.None? && reports == old(reports) && form == old(form)
    {
      editing := None;
    }
  }

  // ----------------------------------------------------------------- history

  function AppointmentDate(a: Appointment): string {
    a.date
  }

  function OfClient(clientId: string): Appointment -> bool {
    (a: Appointment) => a.clientId == clientId
  }

  /**
   * `clientAppointments`: nothing while no patient is selected; otherwise the
   * patient's appointments, newest date first.
   */
  function ClientAppointments(apps: seq<Appointment>, selected: Option<string>): (r: seq<Appointment>)
    ensures selected.None? || selected.value == "" ==> r == []
    ensures selected.Some? && selected.value != "" ==>
      && multiset(r) == multiset(Filter(apps, OfClient(selected.value)))
      && SortedDesc(r, AppointmentDate)
  {
    if selected.None? || selected.value == "" then []
    else SortDesc(Filter(apps, OfClient(selected.value)), AppointmentDate)
  }

  /** The history holds exactly the selected patient's appointments. */
  lemma ClientAppointmentsExact(apps: seq<Appointment>, clientId: string, a: Appointment)
    requires clientId != ""
    ensures a in ClientAppointments(apps, Some(clientId)) <==> a in apps && a.clientId == clientId
  {
    var f := Filter(apps, OfClient(clientId));
    var r := ClientAppointments(apps, Some(clientId));
    assert a in r <==> a in multiset(r);
    assert a in f <==> a in multiset(f);
    FilterMembers(apps, OfClient(clientId), a);
  }

  /**
   * Appointments on one date keep the order they have in the appointment list:
   * the sort is stable.
   */
  lemma ClientAppointmentsStable(apps: seq<Appointment>, clientId: string, date: string)
    requires clientId != ""
    ensures Filter(ClientAppointments(apps, Some(clientId)), KeyIs(AppointmentDate, date))
         == Filter(Filter(apps, OfClient(clientId)), KeyIs(AppointmentDate, date))
  {
    SortDescStable(Filter(apps, OfClient(clientId)), AppointmentDate, date);
  }

  // ---------------------------------------------------------------- patients

  /** The date shown for a patient without appointments. */
  const NoDate := "0000-00-00"

  /**
   * A patient's last appointment date: the head of the patient's appointments
   * sorted newest first, or `NoDate`.
   */
  function LastDate(apps: seq<Appointment>, clientId: string): (d: string)
    ensures (forall i :: 0 <= i < |apps| ==> apps[i].clientId != clientId) ==> d == NoDate
    ensures forall i :: 0 <= i < |apps| && apps[i].clientId == clientId ==> LexLe(apps[i].date, d)
    ensures (exists i :: 0 <= i < |apps| && apps[i].clientId == clientId) ==>
      exists i :: 0 <= i < |apps| && apps[i].clientId == clientId && apps[i].date == d
  {
    var own := Filter(apps, OfClient(clientId));
    var sorted := SortDesc(own, AppointmentDate);
    if |sorted| > 0 then
      LastDateIsMax(apps, clientId, own, sorted);
      sorted[0].date
    else
      assert multiset(own) == multiset{};
      NoDate
  }

  /** The head of the sorted own appointments is one of them and is not older than any. */
  lemma LastDateIsMax(apps: seq<Appointment>, clientId: string, own: seq<Appointment>, sorted: seq<Appointment>)
    requires own == Filter(apps, OfClient(clientId))
    requires multiset(sorted) == multiset(own) && SortedDesc(sorted, AppointmentDate) && |sorted| > 0
    ensures forall i :: 0 <= i < |apps| && apps[i].clientId == clientId ==> LexLe(apps[i].date, sorted[0].date)
    ensures sorted[0] in apps && sorted[0].clientId == clientId
  {
    SortedDescHeadIsMax(sorted, AppointmentDate);
    assert sorted[0] in multiset(own);
    forall i | 0 <= i < |apps| && apps[i].clientId == clientId ensures LexLe(apps[i].date, sorted[0].date) {
      assert OfClient(clientId)(apps[i]);
      assert apps[i] in multiset(sorted);
      var k :| 0 <= k < |sorted| && sorted[k] == apps[i];
      assert LexLe(AppointmentDate(sorted[k]), AppointmentDate(sorted[0]));
    }
  }

  /** A patient with the last appointment date: `{...client, lastDate}`. */
  datatype ClientRow = ClientRow(client: Client, lastDate: string)

  function RowDate(row: ClientRow): string {
    row.lastDate
  }

  /** `clientsWithLastDate`: every patient, in order, with its last date. */
  function Rows(clients: seq<Client>, apps: seq<Appointment>): (r: seq<ClientRow>)
    ensures |r| == |clients|
    ensures forall i :: 0 <= i < |clients| ==> r[i] == ClientRow(clients[i], LastDate(apps, clients[i].id))
    decreases |clients|
  {
    if clients == [] then [] else [ClientRow(clients[0], LastDate(apps, clients[0].id))] + Rows(clients[1..], apps)
  }

  /** The search test: the lower-cased name or e-mail contains the lower-cased query, untrimmed. */
  predicate MatchesQuery(client: Client, query: string) {
    Includes(Lower(client.name), Lower(query)) || Includes(Lower(client.email), Lower(query))
  }

  function QueryTest(query: string): ClientRow -> bool {
    (row: ClientRow) => MatchesQuery(row.client, query)
  }

  /**
   * `filteredClients`: the patients with their last dates; a query that is
   * not blank once trimmed keeps only the matching ones; newest last date
   * first.
   */
  function FilteredClients(clients: seq<Client>, apps: seq<Appointment>, query: string): (r: seq<ClientRow>)
    ensures SortedDesc(r, RowDate)
    ensures Trim(query) == "" ==> multiset(r) == multiset(Rows(clients, apps))
    ensures Trim(query) != "" ==> multiset(r) == multiset(Filter(Rows(clients, apps), QueryTest(query)))
  {
    var rows := Rows(clients, apps);
    var results := if Trim(query) != "" then Filter(rows, QueryTest(query)) else rows;
    SortDesc(results, RowDate)
  }

  /**
   * Which patients the list shows: with a blank query all of them, otherwise
   * exactly those whose name or e-mail matches; each with its last date.
   */
  lemma FilteredClientsMembers(clients: seq<Client>, apps: seq<Appointment>, query: string, row: ClientRow)
    ensures row in FilteredClients(clients, apps, query) <==>
      && row.client in clients
      && row.lastDate == LastDate(apps, row.client.id)
      && (Trim(query) == "" || MatchesQuery(row.client, query))
  {
    var rows := Rows(clients, apps);
    var r := FilteredClients(clients, apps, query);
    assert row in r <==> row in multiset(r);
    RowsMembers(clients, apps, row);
    if Trim(query) != "" {
      var f := Filter(rows, QueryTest(query));
      assert row in f <==> row in multiset(f);
      FilterMembers(rows, QueryTest(query), row);
    } else {
      assert row in rows <==> row in multiset(rows);
    }
  }

  /** The rows are the patients, each with its own last date. */
  lemma RowsMembers(clients: seq<Client>, apps: seq<Appointment>, row: ClientRow)
    ensures row in Rows(clients, apps) <==> row.client in clients && row.lastDate == LastDate(apps, row.client.id)
  {
    if row.client in clients && row.lastDate == LastDate(apps, row.client.id) {
      var i :| 0 <= i < |clients| && clients[i] == row.client;
      assert Rows(clients, apps)[i] == row;
    }
  }

  /**
   * Patients with the same last date keep their order in the client list (all
   * patients without appointments share `NoDate`): the sort is stable.
   */
  lemma FilteredClientsStable(clients: seq<Client>, apps: seq<Appointment>, query: string, date: string)
    ensures Trim(query) == "" ==>
      Filter(FilteredClients(clients, apps, query), KeyIs(RowDate, date))
      == Filter(Rows(clients, apps), KeyIs(RowDate, date))
    ensures Trim(query) != "" ==>
      Filter(FilteredClients(clients, apps, query), KeyIs(RowDate, date))
      == Filter(Filter(Rows(clients, apps), QueryTest(query)), KeyIs(RowDate, date))
  {
    var rows := Rows(clients, apps);
    var results := if Trim(query) != "" then Filter(rows, QueryTest(query)) else rows;
    SortDescStable(results, RowDate, date);
  }

  /** The list is the same whatever the letter case of the query. */
  lemma SearchIgnoresCase(clients: seq<Client>, apps: seq<Appointment>, query: string)
    ensures FilteredClients(clients, apps, Lower(query)) == FilteredClients(clients, apps, query)
  {
    var lq := Lower(query);
    LowerIdempotent(query);
    LowerKeepsBlank(query);
    var rows := Rows(clients, apps);
    FilterAgree(rows, QueryTest(lq), QueryTest(query));
  }
}

=== FILE: Seqs.dfy ===
/**
 * The array pipeline steps the clinic's views are built from: `filter`,
 * `find`, and a stable `sort` by a date key in descending order.
 */
module Seqs {
  import opened Wrappers
  import opened Text

  // ---------------------------------------------------------------- filter

  /** `s.filter(p)`: the elements satisfying `p`, in their original order. */
  function Filter<T(==)>(s: seq<T>, p: T -> bool): (r: seq<T>)
    ensures |r| <= |s|
    ensures forall i :: 0 <= i < |r| ==> r[i] in s && p(r[i])
    ensures forall i :: 0 <= i < |s| && p(s[i]) ==> s[i] in r
    decreases |s|
  {
    if s == [] then []
    else
      assert s == [s[0]] + s[1..];
      (if p(s[0]) then [s[0]] else []) + Filter(s[1..], p)
  }

  /** `xs` can be obtained from `ys` by deleting elements: same order, nothing new. */
  predicate IsSubsequence<T(==)>(xs: seq<T>, ys: seq<T>)
    decreases |ys|
  {
    xs == [] || (ys != [] && ((xs[0] == ys[0] && IsSubsequence(xs[1..], ys[1..])) || IsSubsequence(xs, ys[1..])))
  }

  lemma {:induction false} FilterIsSubsequence<T>(s: seq<T>, p: T -> bool)
    ensures IsSubsequence(Filter(s, p), s)
    decreases |s|
  {
    if s != [] {
      FilterIsSubsequence(s[1..], p);
      if p(s[0]) {
        assert Filter(s, p)[1..] == Filter(s[1..], p);
      } else {
        assert Filter(s, p) == Filter(s[1..], p);
      }
    }
  }

  /** An element is kept by a filter exactly when it occurs and passes the test. */
  lemma FilterMembers<T>(s: seq<T>, p: T -> bool, x: T)
    ensures x in Filter(s, p) <==> x in s && p(x)
  {
    if x in s && p(x) {
      var i :| 0 <= i < |s| && s[i] == x;
      assert p(s[i]);
    }
  }

  /** Filtering a sequence with a given first element. */
  lemma FilterCons<T>(x: T, s: seq<T>, p: T -> bool)
    ensures Filter([x] + s, p) == (if p(x) then [x] else []) + Filter(s, p)
  {
    assert ([x] + s)[1..] == s;
  }

  /** Filtering with two tests that agree on every element gives the same result. */
  lemma {:induction false} FilterAgree<T>(s: seq<T>, p: T -> bool, q: T -> bool)
    requires forall i :: 0 <= i < |s| ==> p(s[i]) == q(s[i])
    ensures Filter(s, p) == Filter(s, q)
    decreases |s|
  {
    if s != [] {
      FilterAgree(s[1..], p, q);
    }
  }

  /** A test every element passes keeps the whole sequence. */
  lemma {:induction false} FilterAll<T>(s: seq<T>, p: T -> bool)
    requires forall i :: 0 <= i < |s| ==> p(s[i])
    ensures Filter(s, p) == s
    decreases |s|
  {
    if s != [] {
      FilterAll(s[1..], p);
      assert s == [s[0]] + s[1..];
    }
  }

  lemma {:induction false} FilterConcat<T>(a: seq<T>, b: seq<T>, p: T -> bool)
    ensures Filter(a + b, p) == Filter(a, p) + Filter(b, p)
    decreases |a|
  {
    if a != [] {
      assert (a + b)[1..] == a[1..] + b;
      FilterConcat(a[1..], b, p);
    } else {
      assert a + b == b;
    }
  }

  lemma {:induction false} FilterIdempotent<T>(s: seq<T>, p: T -> bool)
    ensures Filter(Filter(s, p), p) == Filter(s, p)
  {
    var r := Filter(s, p);
    FilterAll(r, p);
  }

  // ------------------------------------------------------------------ find

  /** `s.find(p)`: the first element satisfying `p`, if any. */
  function Find<T>(s: seq<T>, p: T -> bool): (r: Option<T>)
    ensures r.Some? ==> r.value in s && p(r.value)
    ensures r.None? ==> forall i :: 0 <= i < |s| ==> !p(s[i])
    ensures r.Some? ==> exists k :: 0 <= k < |s| && s[k] == r.value && forall j :: 0 <= j < k ==> !p(s[j])
    decreases |s|
  {
    if s == [] then None
    else if p(s[0]) then Some(s[0])
    else
      var r := Find(s[1..], p);
      assert r.Some? ==> exists k :: 1 <= k < |s| && s[k] == r.value && forall j :: 0 <= j < k ==> !p(s[j]) by {
        if r.Some? {
          var k :| 0 <= k < |s| - 1 && s[1..][k] == r.value && forall j :: 0 <= j < k ==> !p(s[1..][j]);
          assert s[k + 1] == r.value;
          assert forall j :: 0 <= j < k + 1 ==> !p(s[j]) by {
            forall j | 0 <= j < k + 1 ensures !p(s[j]) {
              if j > 0 { assert s[j] == s[1..][j - 1]; }
            }
          }
        }
      }
      r
  }

  // ---------------------------------------------------------------- sorting

  /** Adjacent elements never increase in key: sorted newest date first. */
  predicate SortedDesc<T>(s: seq<T>, key: T -> string) {
    forall i :: 0 <= i < |s| - 1 ==> LexLe(key(s[i + 1]), key(s[i]))
  }

  /**
   * Inserts `x` into a sequence sorted by descending key, in front of the first
   * element whose key is not greater than its own.
   */
  function InsertDesc<T>(x: T, s: seq<T>, key: T -> string): (r: seq<T>)
    requires SortedDesc(s, key)
    ensures multiset(r) == multiset(s) + multiset{x}
    ensures SortedDesc(r, key)
    ensures |r| > 0 && (r[0] == x || (s != [] && r[0] == s[0]))
    decreases |s|
  {
    if s == [] then [x]
    else if LexLe(key(s[0]), key(x)) then
      assert s == [s[0]] + s[1..];
      [x] + s
    else
      LexLeTotal(key(s[0]), key(x));
      assert s == [s[0]] + s[1..];
      var rest := InsertDesc(x, s[1..], key);
      assert LexLe(key(rest[0]), key(s[0]));
      [s[0]] + rest
  }

  /**
   * `[...s].sort((a, b) => key(b).localeCompare(key(a)))`: a stable sort, newest
   * first. Each element is placed in front of the later elements with an equal key.
   */
  function SortDesc<T>(s: seq<T>, key: T -> string): (r: seq<T>)
    ensures multiset(r) == multiset(s)
    ensures SortedDesc(r, key)
    decreases |s|
  {
    if s == [] then []
    else
      assert s == [s[0]] + s[1..];
      InsertDesc(s[0], SortDesc(s[1..], key), key)
  }

  /** The test "has key `k`": the elements a stable sort must keep in input order. */
  function KeyIs<T>(key: T -> string, k: string): T -> bool {
    x => key(x) == k
  }

  /**
   * Inserting `x` keeps the relative order of the elements with any one key:
   * `x` stays in front of every element with its own key.
   */
  lemma {:induction false} InsertStable<T>(x: T, s: seq<T>, key: T -> string, k: string)
    requires SortedDesc(s, key)
    ensures Filter(InsertDesc(x, s, key), KeyIs(key, k)) == Filter([x] + s, KeyIs(key, k))
    decreases |s|
  {
    var p := KeyIs(key, k);
    if s == [] {
      assert InsertDesc(x, s, key) == [x] + s;
    } else if LexLe(key(s[0]), key(x)) {
      assert InsertDesc(x, s, key) == [x] + s;
    } else {
      var rest := InsertDesc(x, s[1..], key);
      assert InsertDesc(x, s, key) == [s[0]] + rest;
      InsertStable(x, s[1..], key, k);
      // The keys differ, so at most one of x and s[0] passes the test.
      LexLeReflexive(key(x));
      FilterSwapHead(s[0], x, s[1..], rest, p);
      assert s == [s[0]] + s[1..];
    }
  }

  /** Two elements of which at most one passes may trade places under a filter. */
  lemma FilterSwapHead<T>(a: T, b: T, t: seq<T>, u: seq<T>, p: T -> bool)
    requires Filter(u, p) == Filter([b] + t, p)
    requires !(p(a) && p(b))
    ensures Filter([a] + u, p) == Filter([b] + ([a] + t), p)
  {
    FilterCons(a, u, p);
    FilterCons(b, t, p);
    FilterCons(a, t, p);
    FilterCons(b, [a] + t, p);
  }

  /**
   * The sort is stable: the elements with any one key appear in the result in
   * the order they have in the input, as `Array.prototype.sort` guarantees.
   */
  lemma {:induction false} SortDescStable<T>(s: seq<T>, key: T -> string, k: string)
    ensures Filter(SortDesc(s, key), KeyIs(key, k)) == Filter(s, KeyIs(key, k))
    decreases |s|
  {
    if s != [] {
      var p := KeyIs(key, k);
      var sorted := SortDesc(s[1..], key);
      assert SortDesc(s, key) == InsertDesc(s[0], sorted, key);
      InsertStable(s[0], sorted, key, k);
      SortDescStable(s[1..], key, k);
      FilterCons(s[0], sorted, p);
      FilterCons(s[0], s[1..], p);
      assert s == [s[0]] + s[1..];
    }
  }

  /** The first element of a descending sequence has the greatest key. */
  lemma {:induction false} SortedDescHeadIsMax<T>(s: seq<T>, key: T -> string)
    requires SortedDesc(s, key) && s != []
    ensures forall i :: 0 <= i < |s| ==> LexLe(key(s[i]), key(s[0]))
    decreases |s|
  {
    LexLeReflexive(key(s[0]));
    if |s| > 1 {
      SortedDescHeadIsMax(s[1..], key);
      forall i | 1 <= i < |s| ensures LexLe(key(s[i]), key(s[0])) {
        assert s[i] == s[1..][i - 1] && s[1] == s[1..][0];
        LexLeTransitive(key(s[i]), key(s[1]), key(s[0]));
      }
    }
  }
}

=== FILE: Slots.dfy ===
/**
 * The availability engine of the public booking page: the day's candidate
 * start times (two fixed windows walked in steps of the consultation length
 * plus a 10-minute buffer), their "HH:MM" rendering, and the filter that keeps
 * the ones still bookable on the selected date.
 *
 * Times of day are minutes since midnight.
 */
module Slots {
  import opened Wrappers
  import opened Text
  import opened Seqs
  import opened Domain

  const MinutesPerDay := 24 * 60
  const MorningStart := 8 * 60
  const MorningEnd := 12 * 60
  const AfternoonStart := 13 * 60 + 30
  const AfternoonEnd := 19 * 60
  /** The fixed pause between two consultations. */
  const Buffer := 10
  /** The consultation length used when the configured one is 0. */
  const FallbackDuration := 60

  /** `settings.defaultDuration || 60`. */
  function SlotDuration(defaultDuration: int): int {
    if defaultDuration == 0 then FallbackDuration else defaultDuration
  }

  /** The duration used is never the falsy 0, and a configured one is kept as it is. */
  lemma SlotDurationFallback(defaultDuration: int)
    ensures SlotDuration(defaultDuration) != 0
    ensures defaultDuration != 0 ==> SlotDuration(defaultDuration) == defaultDuration
    ensures defaultDuration == 0 ==> SlotDuration(defaultDuration) == FallbackDuration
  {
  }

  /** How far apart two consecutive start times in one window are. */
  function Step(defaultDuration: int): int {
    SlotDuration(defaultDuration) + Buffer
  }

  // ------------------------------------------------------------ generation

  /**
   * The start times one `while (current < end)` loop emits: `start` first,
   * each next one `step` minutes later, all strictly before `end`, and no
   * further one fits.
   */
  function WindowSlots(start: int, end: int, step: int): (r: seq<int>)
    requires step > 0
    ensures start < end <==> r != []
    ensures r != [] ==> r[0] == start
    ensures forall i :: 0 <= i < |r| ==> start <= r[i] < end
    ensures forall i :: 0 <= i < |r| - 1 ==> r[i + 1] == r[i] + step
    ensures r != [] ==> r[|r| - 1] + step >= end
    decreases end - start
  {
    if start < end then [start] + WindowSlots(start + step, end, step) else []
  }

  /** The whole day: the morning window's times, then the afternoon window's. */
  function DayMinutes(defaultDuration: int): seq<int>
    requires Step(defaultDuration) > 0
  {
    WindowSlots(MorningStart, MorningEnd, Step(defaultDuration))
      + WindowSlots(AfternoonStart, AfternoonEnd, Step(defaultDuration))
  }

  predicate StrictlyIncreasing(s: seq<int>) {
    forall i, j :: 0 <= i < j < |s| ==> s[i] < s[j]
  }

  lemma {:induction false} AdjacentIncreasing(s: seq<int>)
    requires forall i :: 0 <= i < |s| - 1 ==> s[i] < s[i + 1]
    ensures StrictlyIncreasing(s)
    decreases |s|
  {
    if |s| > 1 {
      AdjacentIncreasing(s[1..]);
      forall i, j | 0 <= i < j < |s| ensures s[i] < s[j] {
        if 0 < i {
          assert s[i] == s[1..][i - 1] && s[j] == s[1..][j - 1];
        } else if 1 < j {
          assert s[1] == s[1..][0] && s[j] == s[1..][j - 1];
        }
      }
    }
  }

  /**
   * The day's start times are strictly increasing, so every morning time
   * comes before every afternoon time and none repeats; the two windows are
   * the only places they fall.
   */
  lemma DayMinutesIncreasing(defaultDuration: int)
    requires Step(defaultDuration) > 0
    ensures StrictlyIncreasing(DayMinutes(defaultDuration))
    ensures forall i :: 0 <= i < |DayMinutes(defaultDuration)| ==>
      var m := DayMinutes(defaultDuration)[i];
      (MorningStart <= m < MorningEnd) || (AfternoonStart <= m < AfternoonEnd)
  {
    var step := Step(defaultDuration);
    var morning := WindowSlots(MorningStart, MorningEnd, step);
    var afternoon := WindowSlots(AfternoonStart, AfternoonEnd, step);
    var day := morning + afternoon;
    forall i | 0 <= i < |day| - 1 ensures day[i] < day[i + 1] {
      if i + 1 < |morning| {
        assert day[i] == morning[i] && day[i + 1] == morning[i + 1];
      } else if i + 1 == |morning| {
        assert day[i] == morning[i] && day[i + 1] == afternoon[0];
      } else {
        assert day[i] == afternoon[i - |morning|] && day[i + 1] == afternoon[i - |morning| + 1];
      }
    }
    AdjacentIncreasing(day);
  }

  // ------------------------------------------------------------- rendering

  function DigitChar(d: int): char
    requires 0 <= d < 10
  {
    ('0' as int + d) as char
  }

  /** A number below 100 as two digits, zero-padded. */
  function Pad2(n: int): string
    requires 0 <= n < 100
  {
    [DigitChar(n / 10), DigitChar(n % 10)]
  }

  /** A time of day, in minutes since midnight. */
  type TimeOfDay = m: int | 0 <= m < MinutesPerDay

  /** A time of day as `toLocaleTimeString('pt-BR', {hour: '2-digit', minute: '2-digit'})` prints it. */
  function Render(m: TimeOfDay): string
  {
    Pad2(m / 60) + ":" + Pad2(m % 60)
  }

  predicate InDay(ms: seq<int>) {
    forall i :: 0 <= i < |ms| ==> 0 <= ms[i] < MinutesPerDay
  }

  /**
   * Renders every time of a sequence with `render`, keeping the order. The
   * model only ever passes `Render`; it is a parameter so that the proofs about
   * the shape of the slot list never unfold `Render`'s digit arithmetic.
   */
  function RenderAll(ms: seq<int>, render: TimeOfDay -> string): (r: seq<string>)
    requires InDay(ms)
    ensures |r| == |ms|
    ensures forall i :: 0 <= i < |ms| ==> r[i] == render(ms[i])
    decreases |ms|
  {
    if ms == [] then [] else [render(ms[0])] + RenderAll(ms[1..], render)
  }

  /** The memoised `timeSlots` list of the booking page: the day's start times, rendered. */
  function TimeSlots(defaultDuration: int): seq<string>
    requires Step(defaultDuration) > 0
  {
    WindowTimes(MorningStart, MorningEnd, Step(defaultDuration), Render)
      + WindowTimes(AfternoonStart, AfternoonEnd, Step(defaultDuration), Render)
  }

  /** The slot list is the day's start times rendered one by one, in order. */
  lemma TimeSlotsRendered(defaultDuration: int, render: TimeOfDay -> string)
    requires Step(defaultDuration) > 0
    ensures InDay(DayMinutes(defaultDuration))
    ensures WindowTimes(MorningStart, MorningEnd, Step(defaultDuration), render)
          + WindowTimes(AfternoonStart, AfternoonEnd, Step(defaultDuration), render)
         == RenderAll(DayMinutes(defaultDuration), render)
  {
    var step := Step(defaultDuration);
    WindowTimesRendered(MorningStart, MorningEnd, step, render);
    WindowTimesRendered(AfternoonStart, AfternoonEnd, step, render);
    RenderAllConcat(WindowSlots(MorningStart, MorningEnd, step), WindowSlots(AfternoonStart, AfternoonEnd, step), render);
  }

  /**
   * `timeSlots`: the morning loop, then the afternoon loop, both pushing onto
   * one list. They end only because the step is positive.
   */
  method GenerateTimeSlots(defaultDuration: int) returns (slots: seq<string>)
    requires Step(defaultDuration) > 0
    ensures slots == TimeSlots(defaultDuration)
  {
    var duration := SlotDuration(defaultDuration);
    var step := duration + Buffer;
    slots := [];
    slots := PushWindow(slots, MorningStart, MorningEnd, step);
    slots := PushWindow(slots, AfternoonStart, AfternoonEnd, step);
  }

  /**
   * One generating `while (current < end)` loop: pushes the rendering of
   * `current` and advances it by `step` minutes.
   */
  method PushWindow(slots: seq<string>, start: int, end: int, step: int) returns (out: seq<string>)
    requires step > 0 && 0 <= start && end <= MinutesPerDay
    ensures out == slots + WindowTimes(start, end, step, Render)
  {
    out := slots;
    var current := start;
    while current < end
      invariant start <= current
      invariant out + WindowTimes(current, end, step, Render) == slots + WindowTimes(start, end, step, Render)
      decreases end - current
    {
      out := out + [Render(current)];
      current := current + step;
    }
  }

  /** The renderings one generating loop pushes, from `start` on. */
  function WindowTimes(start: int, end: int, step: int, render: TimeOfDay -> string): seq<string>
    requires step > 0 && 0 <= start && end <= MinutesPerDay
    decreases end - start
  {
    if start < end then [render(start)] + WindowTimes(start + step, end, step, render) else []
  }

  /** A window inside the day yields times of day only. */
  lemma WindowSlotsInDay(start: int, end: int, step: int)
    requires step > 0 && 0 <= start && end <= MinutesPerDay
    ensures InDay(WindowSlots(start, end, step))
  {
  }

  lemma {:induction false} WindowTimesRendered(start: int, end: int, step: int, render: TimeOfDay -> string)
    requires step > 0 && 0 <= start && end <= MinutesPerDay
    ensures InDay(WindowSlots(start, end, step))
    ensures WindowTimes(start, end, step, render) == RenderAll(WindowSlots(start, end, step), render)
    decreases end - start
  {
    WindowSlotsInDay(start, end, step);
    if start < end {
      var rest := WindowSlots(start + step, end, step);
      WindowTimesRendered(start + step, end, step, render);
      RenderAllCons(start, rest, render);
      assert WindowSlots(start, end, step) == [start] + rest;
    }
  }

  lemma RenderAllCons(m: int, ms: seq<int>, render: TimeOfDay -> string)
    requires 0 <= m < MinutesPerDay && InDay(ms)
    ensures InDay([m] + ms) && RenderAll([m] + ms, render) == [render(m)] + RenderAll(ms, render)
  {
    var all := [m] + ms;
    assert all[1..] == ms;
    forall i | 0 < i < |all| ensures 0 <= all[i] < MinutesPerDay {
      assert all[i] == ms[i - 1];
    }
  }

  lemma RenderAllConcat(a: seq<int>, b: seq<int>, render: TimeOfDay -> string)
    requires InDay(a) && InDay(b)
    ensures InDay(a + b) && RenderAll(a + b, render) == RenderAll(a, render) + RenderAll(b, render)
  {
    assert InDay(a + b) by {
      forall i | 0 <= i < |a + b| ensures 0 <= (a + b)[i] < MinutesPerDay {
        if i >= |a| { assert (a + b)[i] == b[i - |a|]; }
      }
    }
  }

  // --------------------------------------------------------------- parsing

  /**
   * `const [hour, minute] = time.split(':').map(Number)`: a missing piece is
   * `undefined` and a non-numeric one NaN, both `None` here.
   */
  function ParseTime(time: string): (p: (Option<int>, Option<int>))
    ensures ':' !in time ==> p == (Number(time), None)
  {
    var parts := Split(time, ':');
    assert ':' !in time ==> parts == [time] by {
      if ':' !in time {
        SplitNoSeparator(time, ':');
      }
    }
    (Number(parts[0]), if |parts| > 1 then Number(parts[1]) else None)
  }

  /**
   * With a ':' at index `k` and none before it, the hour is read from the text
   * before it and the minute from the text after it, up to any further ':'.
   */
  lemma ParseTimeAtColon(time: string, k: int)
    requires 0 <= k < |time| && time[k] == ':' && ':' !in time[..k]
    ensures ParseTime(time) == (Number(time[..k]), Number(Split(time[k + 1..], ':')[0]))
  {
    SplitFirstPiece(time, ':');
  }

  lemma Pad2Value(n: int)
    requires 0 <= n < 100
    ensures ':' !in Pad2(n)
    ensures Number(Pad2(n)) == Some(n)
  {
    var p := Pad2(n);
    assert p[..1] == [p[0]];
    assert DigitsValue([p[0]]) == n / 10 by {
      assert [p[0]][..0] == [];
    }
  }

  /** Rendering a time of day and splitting it on ':' gives back its hour and minute. */
  lemma RenderParse(m: int)
    requires 0 <= m < MinutesPerDay
    ensures ParseTime(Render(m)) == (Some(m / 60), Some(m % 60))
  {
    Pad2Value(m / 60);
    Pad2Value(m % 60);
    SplitAtSeparator(Pad2(m / 60), Pad2(m % 60), ':');
    SplitNoSeparator(Pad2(m % 60), ':');
    assert Render(m) == Pad2(m / 60) + [':'] + Pad2(m % 60);
  }

  /** Two different times of day never render alike. */
  lemma RenderInjective(a: int, b: int)
    requires 0 <= a < MinutesPerDay && 0 <= b < MinutesPerDay
    requires Render(a) == Render(b)
    ensures a == b
  {
    RenderParse(a);
    RenderParse(b);
  }

  // ------------------------------------------------------------- filtering

  /** The practice's wall clock: today's "YYYY-MM-DD" and the current hour and minute. */
  datatype Clock = Clock(today: string, hour: int, minute: int)

  /** `hour < currentHour || (hour === currentHour && minute <= currentMinute)`; NaN and `undefined` compare false. */
  predicate AtOrBefore(time: string, hour: int, minute: int)
    ensures ParseTime(time).0.None? ==> !AtOrBefore(time, hour, minute)
  {
    var (h, m) := ParseTime(time);
    h.Some? && (h.value < hour || (h.value == hour && m.Some? && m.value <= minute))
  }

  /** A rendered slot is at or before the clock exactly when its minute of the day is. */
  lemma AtOrBeforeRendered(m: int, hour: int, minute: int)
    requires 0 <= m < MinutesPerDay && 0 <= minute < 60
    ensures AtOrBefore(Render(m), hour, minute) <==> m <= hour * 60 + minute
  {
    RenderParse(m);
  }

  /** An appointment holds a slot when it is on that date at exactly that time and is not cancelled. */
  predicate Blocks(app: Appointment, date: string, time: string) {
    app.date == date && app.time == time && app.status != Cancelled
  }

  /** `appointments.some(app => ...)`. */
  predicate IsBooked(apps: seq<Appointment>, date: string, time: string) {
    exists i :: 0 <= i < |apps| && Blocks(apps[i], date, time)
  }

  /** The test `availableTimeSlots` applies to one slot. */
  predicate Bookable(date: string, clock: Clock, apps: seq<Appointment>, time: string) {
    && !(date == clock.today && AtOrBefore(time, clock.hour, clock.minute))
    && !IsBooked(apps, date, time)
  }

  /** The test as a function value, for `filter`. */
  function BookableTest(date: string, clock: Clock, apps: seq<Appointment>): string -> bool {
    t => Bookable(date, clock, apps, t)
  }

  /** The test that remains on a date other than today's: the slot is not taken. */
  function FreeTest(date: string, apps: seq<Appointment>): string -> bool {
    t => !IsBooked(apps, date, t)
  }

  /** `availableTimeSlots`: nothing without a date, else the bookable slots in their order. */
  function AvailableTimeSlots(selectedDate: string, clock: Clock, slots: seq<string>, apps: seq<Appointment>): (r: seq<string>)
    ensures selectedDate == "" ==> r == []
    ensures forall i :: 0 <= i < |r| ==> r[i] in slots && Bookable(selectedDate, clock, apps, r[i])
    ensures selectedDate != "" ==>
      forall i :: 0 <= i < |slots| && Bookable(selectedDate, clock, apps, slots[i]) ==> slots[i] in r
  {
    if selectedDate == "" then [] else Filter(slots, BookableTest(selectedDate, clock, apps))
  }

  /** The available slots keep the generated order and add nothing. */
  lemma AvailableIsSubsequence(selectedDate: string, clock: Clock, slots: seq<string>, apps: seq<Appointment>)
    ensures IsSubsequence(AvailableTimeSlots(selectedDate, clock, slots, apps), slots)
  {
    if selectedDate != "" {
      FilterIsSubsequence(slots, BookableTest(selectedDate, clock, apps));
    }
  }

  /** No slot offered on a date is the time of a non-cancelled appointment on that date. */
  lemma AvailableAvoidsBooked(selectedDate: string, clock: Clock, slots: seq<string>, apps: seq<Appointment>, k: nat)
    requires k < |apps| && apps[k].date == selectedDate && apps[k].status != Cancelled
    ensures apps[k].time !in AvailableTimeSlots(selectedDate, clock, slots, apps)
  {
    var r := AvailableTimeSlots(selectedDate, clock, slots, apps);
    if i :| 0 <= i < |r| && r[i] == apps[k].time {
      assert Blocks(apps[k], selectedDate, r[i]);
    }
  }

  /** A cancelled appointment, wherever it sits in the list, never takes a slot away. */
  lemma CancelledNeverBlocks(selectedDate: string, clock: Clock, slots: seq<string>,
                             before: seq<Appointment>, cancelled: Appointment, after: seq<Appointment>)
    requires cancelled.status == Cancelled
    ensures AvailableTimeSlots(selectedDate, clock, slots, before + [cancelled] + after)
         == AvailableTimeSlots(selectedDate, clock, slots, before + after)
  {
    var withIt := before + [cancelled] + after;
    var without := before + after;
    forall t ensures IsBooked(withIt, selectedDate, t) == IsBooked(without, selectedDate, t) {
      if IsBooked(withIt, selectedDate, t) {
        var i :| 0 <= i < |withIt| && Blocks(withIt[i], selectedDate, t);
        if i < |before| {
          assert without[i] == withIt[i];
        } else {
          assert i > |before| && without[i - 1] == withIt[i];
        }
      }
      if IsBooked(without, selectedDate, t) {
        var i :| 0 <= i < |without| && Blocks(without[i], selectedDate, t);
        if i < |before| {
          assert withIt[i] == without[i];
        } else {
          assert withIt[i + 1] == without[i];
        }
      }
    }
    if selectedDate != "" {
      FilterAgree(slots, BookableTest(selectedDate, clock, withIt), BookableTest(selectedDate, clock, without));
    }
  }

  /** On any date other than today the clock removes nothing: only booked times are dropped. */
  lemma OtherDayIgnoresClock(selectedDate: string, clock: Clock, slots: seq<string>, apps: seq<Appointment>)
    requires selectedDate != "" && selectedDate != clock.today
    ensures AvailableTimeSlots(selectedDate, clock, slots, apps)
         == Filter(slots, FreeTest(selectedDate, apps))
  {
    FilterAgree(slots, BookableTest(selectedDate, clock, apps), FreeTest(selectedDate, apps));
  }

  /**
   * On today's date every offered slot of the day's list starts strictly after
   * the current hour and minute.
   */
  lemma TodayOnlyLaterSlots(defaultDuration: int, clock: Clock, apps: seq<Appointment>)
    requires Step(defaultDuration) > 0
    requires clock.today != "" && 0 <= clock.minute < 60
    ensures forall i :: 0 <= i < |DayMinutes(defaultDuration)| ==>
      Render(DayMinutes(defaultDuration)[i]) in AvailableTimeSlots(clock.today, clock, TimeSlots(defaultDuration), apps) ==>
        DayMinutes(defaultDuration)[i] > clock.hour * 60 + clock.minute
  {
    var ms := DayMinutes(defaultDuration);
    var r := AvailableTimeSlots(clock.today, clock, TimeSlots(defaultDuration), apps);
    forall i | 0 <= i < |ms| && Render(ms[i]) in r ensures ms[i] > clock.hour * 60 + clock.minute {
      var j :| 0 <= j < |r| && r[j] == Render(ms[i]);
      assert !AtOrBefore(Render(ms[i]), clock.hour, clock.minute);
      AtOrBeforeRendered(ms[i], clock.hour, clock.minute);
    }
  }

  // ------------------------------------------------------------- examples

  /** With the default 60-minute consultation the day has nine start times. */
  lemma DefaultDayMinutes()
    ensures DayMinutes(60) == [480, 550, 620, 690, 810, 880, 950, 1020, 1090]
  {
    assert WindowSlots(690, MorningEnd, 70) == [690];
    assert WindowSlots(550, MorningEnd, 70) == [550, 620, 690];
    var morning := WindowSlots(MorningStart, MorningEnd, 70);
    assert morning == [480, 550, 620, 690];
    assert WindowSlots(1090, AfternoonEnd, 70) == [1090];
    assert WindowSlots(950, AfternoonEnd, 70) == [950, 1020, 1090];
    var afternoon := WindowSlots(AfternoonStart, AfternoonEnd, 70);
    assert afternoon == [810, 880, 950, 1020, 1090];
    assert DayMinutes(60) == morning + afternoon;
  }

  /** With the default 60-minute consultation the morning offers 08:00, 09:10, 10:20 and 11:30. */
  lemma DefaultMorningSlots()
    ensures WindowTimes(MorningStart, MorningEnd, Step(0), Render) == ["08:00", "09:10", "10:20", "11:30"]
  {
    assert Render(480) == "08:00";
    assert Render(550) == "09:10";
    assert Render(620) == "10:20";
    assert Render(690) == "11:30";
  }

  /** ... and the afternoon 13:30, 14:40, 15:50, 17:00 and 18:10. */
  lemma DefaultAfternoonSlots()
    ensures WindowTimes(AfternoonStart, AfternoonEnd, Step(0), Render) == ["13:30", "14:40", "15:50", "17:00", "18:10"]
  {
    assert Render(810) == "13:30";
    assert Render(880) == "14:40";
    assert Render(950) == "15:50";
    assert Render(1020) == "17:00";
    assert Render(1090) == "18:10";
  }

  /** The test that keeps every time except `time`. */
  function OtherTime(time: string): string -> bool {
    t => t != time
  }

  /**
   * On a date other than today a single booking that is not cancelled removes
   * every copy of its own time and nothing else.
   */
  lemma OneBookingRemovesItsTime(date: string, clock: Clock, slots: seq<string>, app: Appointment)
    requires date != "" && date != clock.today
    requires app.date == date && app.status != Cancelled
    ensures AvailableTimeSlots(date, clock, slots, [app]) == Filter(slots, OtherTime(app.time))
  {
    forall t ensures Bookable(date, clock, [app], t) <==> t != app.time {
      if t == app.time {
        assert Blocks([app][0], date, t);
      }
    }
    FilterAgree(slots, BookableTest(date, clock, [app]), OtherTime(app.time));
  }
}

=== FILE: Text.dfy ===
/**
 * The parts of the JavaScript string library that the clinic's logic relies on,
 * written out over `string` (a sequence of Unicode scalar values, which stand
 * for the code units of the JavaScript strings involved):
 * `toLowerCase`, `trim`, `includes`, `split`, `Number` on a decimal string and
 * `localeCompare` on fixed-width ISO dates.
 */
module Text {
  import opened Wrappers

  // ---------------------------------------------------------------- case

  /** Lower-cases one ASCII letter and leaves every other character alone. */
  function LowerChar(c: char): char {
    if 'A' <= c <= 'Z' then (c as int + 32) as char else c
  }

  /** `s.toLowerCase()`, restricted to the ASCII letters. */
  function Lower(s: string): (r: string)
    ensures |r| == |s|
    ensures forall i :: 0 <= i < |s| ==> r[i] == LowerChar(s[i])
  {
    if s == [] then [] else [LowerChar(s[0])] + Lower(s[1..])
  }

  // ------------------------------------------------------------- trimming

  /** The characters `String.prototype.trim` removes: white space and line terminators. */
  predicate IsSpace(c: char) {
    || c == ' ' || c == '\t' || c == '\n' || c == '\r'
    || c == '\U{000B}' || c == '\U{000C}' || c == '\U{00A0}' || c == '\U{1680}'
    || ('\U{2000}' <= c <= '\U{200A}')
    || c == '\U{2028}' || c == '\U{2029}' || c == '\U{202F}' || c == '\U{205F}'
    || c == '\U{3000}' || c == '\U{FEFF}'
  }

  /** Drops the leading white space of `s`. */
  function TrimStart(s: string): (r: string)
    ensures |r| <= |s| && r == s[|s| - |r|..]
    ensures forall i :: 0 <= i < |s| - |r| ==> IsSpace(s[i])
    ensures r == [] || !IsSpace(r[0])
  {
    if s != [] && IsSpace(s[0]) then TrimStart(s[1..]) else s
  }

  /** Drops the trailing white space of `s`. */
  function TrimEnd(s: string): (r: string)
    ensures |r| <= |s| && r == s[..|r|]
    ensures forall i :: |r| <= i < |s| ==> IsSpace(s[i])
    ensures r == [] || !IsSpace(r[|r| - 1])
  {
    if s != [] && IsSpace(s[|s| - 1]) then TrimEnd(s[..|s| - 1]) else s
  }

  /** `s.trim()`. */
  function Trim(s: string): string {
    TrimEnd(TrimStart(s))
  }

  /** A string is falsy after `trim()` exactly when every character of it is white space. */
  lemma TrimEmptyIffBlank(s: string)
    ensures Trim(s) == [] <==> forall i :: 0 <= i < |s| ==> IsSpace(s[i])
  {
    var t := TrimStart(s);
    if t != [] {
      assert !IsSpace(t[0]);
    }
  }

  /** Lower-casing twice is lower-casing once. */
  lemma LowerIdempotent(s: string)
    ensures Lower(Lower(s)) == Lower(s)
  {
  }

  /** Lower-casing turns no character into white space and none out of it. */
  lemma LowerKeepsBlank(s: string)
    ensures Trim(Lower(s)) == [] <==> Trim(s) == []
  {
    var l := Lower(s);
    forall i | 0 <= i < |s| ensures IsSpace(l[i]) == IsSpace(s[i]) {
      LowerCharKeepsSpace(s[i]);
    }
    TrimEmptyIffBlank(s);
    TrimEmptyIffBlank(l);
  }

  lemma LowerCharKeepsSpace(c: char)
    ensures IsSpace(LowerChar(c)) == IsSpace(c)
  {
    if 'A' <= c <= 'Z' {
      assert 'a' <= LowerChar(c) <= 'z';
    }
  }

  // ------------------------------------------------------------ searching

  predicate StartsWith(s: string, prefix: string) {
    |prefix| <= |s| && s[..|prefix|] == prefix
  }

  /** `s.includes(sub)`: `sub` occurs in `s` at some position. */
  predicate Includes(s: string, sub: string)
    decreases |s|
  {
    StartsWith(s, sub) || (s != [] && Includes(s[1..], sub))
  }

  /** `sub` is the slice of `s` that starts at index `i`. */
  predicate OccursAt(s: string, sub: string, i: int) {
    0 <= i <= |s| - |sub| && s[i..i + |sub|] == sub
  }

  /** `Includes` holds exactly when `sub` is the slice of `s` at some index. */
  lemma {:induction false} IncludesIff(s: string, sub: string)
    ensures Includes(s, sub) <==> exists i :: OccursAt(s, sub, i)
    decreases |s|
  {
    if StartsWith(s, sub) {
      assert OccursAt(s, sub, 0);
    }
    if s != [] {
      IncludesIff(s[1..], sub);
      if Includes(s[1..], sub) {
        var i :| OccursAt(s[1..], sub, i);
        assert s[i + 1..i + 1 + |sub|] == s[1..][i..i + |sub|];
        assert OccursAt(s, sub, i + 1);
      }
      if i :| OccursAt(s, sub, i) {
        if i > 0 {
          assert s[1..][i - 1..i - 1 + |sub|] == s[i..i + |sub|];
          assert OccursAt(s[1..], sub, i - 1);
        }
      }
    }
  }

  // ------------------------------------------------------------ splitting

  /** `s.split(sep)` for a one-character separator: the pieces between separators, always at least one. */
  function Split(s: string, sep: char): (r: seq<string>)
    ensures |r| >= 1
    ensures forall k :: 0 <= k < |r| ==> sep !in r[k]
    decreases |s|
  {
    if s == [] then [""]
    else if s[0] == sep then [""] + Split(s[1..], sep)
    else
      var rest := Split(s[1..], sep);
      [[s[0]] + rest[0]] + rest[1..]
  }

  /** Joins pieces with a separator: `parts.join(sep)`. */
  function Join(parts: seq<string>, sep: char): string
    requires |parts| >= 1
    decreases |parts|
  {
    if |parts| == 1 then parts[0] else parts[0] + [sep] + Join(parts[1..], sep)
  }

  /** Splitting loses nothing: joining the pieces again gives back the string. */
  lemma {:induction false} SplitJoin(s: string, sep: char)
    ensures Join(Split(s, sep), sep) == s
    decreases |s|
  {
    if s != [] {
      SplitJoin(s[1..], sep);
      var rest := Split(s[1..], sep);
      if s[0] == sep {
        assert Split(s, sep)[1..] == rest;
      } else {
        var r := Split(s, sep);
        if |rest| == 1 {
          assert r == [[s[0]] + rest[0]];
        } else {
          assert r[1..] == rest[1..];
          assert Join(r, sep) == [s[0]] + rest[0] + [sep] + Join(rest[1..], sep);
        }
      }
    }
  }

  /** A string split on a separator it does not contain is one piece. */
  lemma {:induction false} SplitNoSeparator(s: string, sep: char)
    requires sep !in s
    ensures Split(s, sep) == [s]
    decreases |s|
  {
    if s != [] {
      assert s[0] != sep && s == [s[0]] + s[1..];
      SplitNoSeparator(s[1..], sep);
    }
  }

  /** The first piece of a split is the text before the first separator, or all of it. */
  lemma SplitFirstPiece(s: string, sep: char)
    ensures sep !in s ==> Split(s, sep) == [s]
    ensures forall k :: 0 <= k < |s| && s[k] == sep && sep !in s[..k] ==>
      Split(s, sep) == [s[..k]] + Split(s[k + 1..], sep)
  {
    if sep !in s {
      SplitNoSeparator(s, sep);
    }
    forall k | 0 <= k < |s| && s[k] == sep && sep !in s[..k]
      ensures Split(s, sep) == [s[..k]] + Split(s[k + 1..], sep)
    {
      assert s == s[..k] + [sep] + s[k + 1..];
      SplitAtSeparator(s[..k], s[k + 1..], sep);
    }
  }

  /** Splitting `a + [sep] + b`, where `a` holds no separator, yields `a` followed by the pieces of `b`. */
  lemma {:induction false} SplitAtSeparator(a: string, b: string, sep: char)
    requires sep !in a
    ensures Split(a + [sep] + b, sep) == [a] + Split(b, sep)
    decreases |a|
  {
    if a == [] {
      assert a + [sep] + b == [sep] + b;
      assert ([sep] + b)[1..] == b;
    } else {
      assert (a + [sep] + b)[1..] == a[1..] + [sep] + b;
      SplitAtSeparator(a[1..], b, sep);
      assert [a[0]] + a[1..] == a;
    }
  }

  // --------------------------------------------------------------- numbers

  predicate IsDigit(c: char) {
    '0' <= c <= '9'
  }

  /** The value of a string of decimal digits; the empty string reads as 0. */
  function DigitsValue(s: string): int
    requires forall i :: 0 <= i < |s| ==> IsDigit(s[i])
    decreases |s|
  {
    if s == [] then 0 else 10 * DigitsValue(s[..|s| - 1]) + (s[|s| - 1] as int - '0' as int)
  }

  /**
   * `Number(s)` for the strings this model reaches: a run of decimal digits
   * (the empty string gives 0, as in JavaScript); anything else is NaN, `None`.
   */
  function Number(s: string): Option<int> {
    if forall i :: 0 <= i < |s| ==> IsDigit(s[i]) then Some(DigitsValue(s)) else None
  }

  // -------------------------------------------------------------- ordering

  /**
   * Code-point lexicographic order. `localeCompare` is only ever applied to
   * "YYYY-MM-DD" dates, where it agrees with this order.
   */
  predicate LexLe(a: string, b: string)
    decreases |a|
  {
    a == [] || (b != [] && (a[0] < b[0] || (a[0] == b[0] && LexLe(a[1..], b[1..]))))
  }

  lemma {:induction false} LexLeReflexive(a: string)
    ensures LexLe(a, a)
    decreases |a|
  {
    if a != [] {
      LexLeReflexive(a[1..]);
    }
  }

  lemma {:induction false} LexLeTotal(a: string, b: string)
    ensures LexLe(a, b) || LexLe(b, a)
    decreases |a|
  {
    if a != [] && b != [] && a[0] == b[0] {
      LexLeTotal(a[1..], b[1..]);
    }
  }

  lemma {:induction false} LexLeTransitive(a: string, b: string, c: string)
    requires LexLe(a, b) && LexLe(b, c)
    ensures LexLe(a, c)
    decreases |a|
  {
    if a != [] && a[0] == b[0] && b[0] == c[0] {
      LexLeTransitive(a[1..], b[1..], c[1..]);
    }
  }

  lemma {:induction false} LexLeAntisymmetric(a: string, b: string)
    requires LexLe(a, b) && LexLe(b, a)
    ensures a == b
    decreases |a|
  {
    if a != [] {
      LexLeAntisymmetric(a[1..], b[1..]);
      assert a == [a[0]] + a[1..] && b == [b[0]] + b[1..];
    }
  }
}

=== FILE: Wizard.dfy ===
/**
 * The booking dialog of the public page: a three-step state machine. Step 1
 * picks a date and one of the offered times, step 2 collects the contact
 * details and submits, step 3 shows the confirmed appointment. Closing the
 * dialog resets everything.
 */
module Wizard {
  import opened Wrappers
  import opened Domain
  import opened Slots
  import opened Booking

  const EmptyContact := ContactInfo("", "", "")

  class BookingWizard {
    var showBooking: bool
    var step: int
    var isProcessing: bool
    var selectedDate: string
    var selectedTime: string
    var clientInfo: ContactInfo
    var finalAppointment: Option<Appointment>

    /** The state the dialog starts in and returns to when closed. */
    predicate Blank()
      reads this
    {
      && step == 1
      && !isProcessing
      && selectedDate == ""
      && selectedTime == ""
      && clientInfo == EmptyContact
      && finalAppointment.None?
    }

    /**
     * The invariant every event of this model keeps, with the submission taken
     * as one atomic step: the step is 1, 2 or 3; nothing is processing; a step
     * past the first has a date and a time; the confirmed appointment exists
     * exactly at step 3; and a hidden dialog is blank. The page itself can
     * break it by closing the dialog while a submission is pending.
     */
    predicate Valid()
      reads this
    {
      && (step == 1 || step == 2 || step == 3)
      && !isProcessing
      && (step >= 2 ==> selectedDate != "" && selectedTime != "")
      && (step == 3 <==> finalAppointment.Some?)
      && (!showBooking ==> Blank())
    }

    /** The initial `useState` values. */
    constructor ()
      ensures !showBooking && Blank() && Valid()
    {
      showBooking := false;
      step := 1;
      isProcessing := false;
      selectedDate := "";
      selectedTime := "";
      clientInfo := EmptyContact;
      finalAppointment := None;
    }

    /** `setShowBooking(true)` from one of the page's booking buttons. */
    method Open()
      requires Valid()
      modifies this
      ensures showBooking
      ensures step == old(step) && selectedDate == old(selectedDate) && selectedTime == old(selectedTime)
      ensures clientInfo == old(clientInfo) && finalAppointment == old(finalAppointment)
      ensures isProcessing == old(isProcessing)
      ensures Valid()
    {
      showBooking := true;
    }

    /** Step `n` is on screen: the dialog is open and nothing is processing. */
    predicate AtStep(n: int)
      reads this
    {
      showBooking && !isProcessing && step == n
    }

    /**
     * The date input of step 1. The chosen time is kept as it is, even when
     * it is not offered on the new date.
     */
    method SelectDate(date: string)
      requires Valid()
      modifies this
      ensures selectedDate == (if old(AtStep(1)) then date else old(selectedDate))
      ensures showBooking == old(showBooking) && step == old(step) && selectedTime == old(selectedTime)
      ensures clientInfo == old(clientInfo) && finalAppointment == old(finalAppointment)
      ensures isProcessing == old(isProcessing)
      ensures Valid()
    {
      if AtStep(1) {
        selectedDate := date;
      }
    }

    /**
     * A time button of step 1. The buttons exist only once a date is chosen
     * and show `availableTimeSlots` for it: the day's `timeSlots` for the
     * configured duration, less the times the application's appointments hold.
     */
    method SelectTime(time: string, clock: Clock, store: Store)
      requires Valid()
      requires Step(store.settings.defaultDuration) > 0
      modifies this
      ensures var offered := old(AtStep(1)) && old(selectedDate) != ""
                && time in AvailableTimeSlots(old(selectedDate), clock,
                                              TimeSlots(store.settings.defaultDuration), store.appointments);
        selectedTime == (if offered then time else old(selectedTime))
      ensures showBooking == old(showBooking) && step == old(step) && selectedDate == old(selectedDate)
      ensures clientInfo == old(clientInfo) && finalAppointment == old(finalAppointment)
      ensures isProcessing == old(isProcessing)
      ensures Valid()
    {
      if AtStep(1) && selectedDate != ""
         && time in AvailableTimeSlots(selectedDate, clock, TimeSlots(store.settings.defaultDuration), store.appointments) {
        selectedTime := time;
      }
    }

    /** "Prosseguir": enabled only with both a date and a time; moves to step 2. */
    method Proceed()
      requires Valid()
      modifies this
      ensures step == (if old(AtStep(1)) && old(selectedDate) != "" && old(selectedTime) != "" then 2 else old(step))
      ensures showBooking == old(showBooking) && selectedDate == old(selectedDate) && selectedTime == old(selectedTime)
      ensures clientInfo == old(clientInfo) && finalAppointment == old(finalAppointment)
      ensures isProcessing == old(isProcessing)
      ensures Valid()
    {
      if AtStep(1) && selectedDate != "" && selectedTime != "" {
        step := 2;
      }
    }

    /** The three inputs of step 2 (`setClientInfo({...clientInfo, field: value})`). */
    method EditContact(info: ContactInfo)
      requires Valid()
      modifies this
      ensures clientInfo == (if old(AtStep(2)) then info else old(clientInfo))
      ensures showBooking == old(showBooking) && step == old(step)
      ensures selectedDate == old(selectedDate) && selectedTime == old(selectedTime)
      ensures finalAppointment == old(finalAppointment) && isProcessing == old(isProcessing)
      ensures Valid()
    {
      if AtStep(2) {
        clientInfo := info;
      }
    }

    /** The form of step 2 submits only with its three `required` inputs filled in. */
    predicate CanSubmit()
      reads this
    {
      AtStep(2) && clientInfo.name != "" && clientInfo.phone != "" && clientInfo.email != ""
    }

    /**
     * `handleBookingSubmit`: registers the booking in the store, then shows
     * the appointment it returned at step 3. Without a submittable form
     * nothing changes.
     */
    method Submit(store: Store, st: Stamps)
      requires Valid()
      modifies this, store
      ensures old(CanSubmit()) ==>
        var booked := Register(old(store.Contents()), old(store.settings), old(clientInfo),
                               old(selectedDate), old(selectedTime), st);
        && store.Contents() == booked.after
        && step == 3 && finalAppointment == Some(booked.appointment)
      ensures !old(CanSubmit()) ==>
        store.Contents() == old(store.Contents()) && step == old(step) && finalAppointment == old(finalAppointment)
      ensures store.settings == old(store.settings)
      ensures showBooking == old(showBooking) && selectedDate == old(selectedDate)
      ensures selectedTime == old(selectedTime) && clientInfo == old(clientInfo)
      ensures Valid()
    {
      if CanSubmit() {
        isProcessing := true;
        var app := store.RegisterNewBooking(clientInfo, selectedDate, selectedTime, st);
        finalAppointment := Some(app);
        step := 3;
        isProcessing := false;
      }
    }

    /** `closeBooking`: hides the dialog and clears every field. */
    method Close()
      modifies this
      ensures !showBooking && Blank() && Valid()
    {
      showBooking := false;
      step := 1;
      isProcessing := false;
      selectedDate := "";
      selectedTime := "";
      clientInfo := EmptyContact;
      finalAppointment := None;
    }
  }
}

=== FILE: Wrappers.dfy ===
/** The optional value used wherever the source has `undefined`, `null` or NaN. */
module Wrappers {

  datatype Option<+T> = None | Some(value: T) {

    /** `x || d` on an optional string: the value when there is one, else `d`. */
    function GetOr(default: T): T {
      match this
      case Some(v) => v
      case None => default
    }
  }
}
